=== FILE: README.md ===
# PwnChain module step, in Dafny

PwnChain runs a tree of shell commands. Each node of the tree is a `Module`:
it starts from its parent's variables and adds its own. It passes a gate
(`enabled`, then `condition`) and binds its files to temporary paths. Then it
runs its command and matches every output line against its patterns. Each
match binds the captures as new variables, logs a message and starts the node's
`on_match` children. When the output is exhausted, the node starts its `always`
children.

This project models one node's step as pure functions over immutable data, and
the whole tree as a structural recursion over the definition.

- `templates.dfy` — `str.format` templates, already split into literal text and
  `{name}` fields. Resolving one fails with the first unbound name, the
  `KeyError` Python raises.
- `definitions.dfy` — the node configuration (`NodeDef`, `PatternDef`,
  `FileDef`), the error kinds, and the `Oracles` record. `Oracles` stands in for
  `eval`, `re`, `Popen`, `NamedTemporaryFile`, `b64decode` and `urlopen`.
- `instances.dfy` — `Module.__init__`: the initial scope and the logger name.
- `gate.dfy` — `should_not_run`.
- `files.dfy` — `unpack_files`, reduced to the name-to-path bindings.
- `patterns.dfy` — compiling the pattern sources, and binding the captures of
  one match in order.
- `worker.dfy` — `run_worker` and `run_submodules`. A run is a trace of
  `Log(message)` and `Spawn(group, child, scope)` events, with its end state
  `Completed` or `Failed(error)`, or `Skipped`. The properties of whole runs
  are in module `WorkerProperties`.
- `tree.dfy` — the info messages of a whole tree, with each child's messages
  placed where the child is started.
- `fixture.dfy` — the module's embedded unit-test configuration, with the
  `should_not_run`, `unpack_files` and `run` expectations proved of it.

A spawned child's run is sequential in this model: a node's threads become its
`Spawn` events, in the order `run_submodules` creates them.

## Model

| member | source | states |
|---|---|---|
| Templates.Resolve | pwnchain_module.py:73 | Resolution succeeds exactly when every field is bound. On failure it reports a field that is unbound and that every earlier field is bound (the leftmost missing name). |
| Templates.ResolveToken | pwnchain_module.py:73 | Literal text resolves to itself. A field resolves to the variable's value when the scope binds it, and otherwise fails with the field's name. With `ResolveAppend` this fixes the text of every template. |
| Templates.ResolveAppend | pwnchain_module.py:73 | Resolving a concatenation resolves the left part, then the right part, and joins the texts. The reported missing name is the left part's if it has one. |
| Templates.ResolveAgree | pwnchain_module.py:97 | Two scopes that agree on the names a template mentions resolve it identically. |
| Templates.ResolveBlank | pwnchain_module.py:99-100 | A template whose source text is empty resolves to the empty string under every scope. |
| Instances.InitScope | pwnchain_module.py:47-54 | The node's scope has the parent's keys plus the declared keys. Declared values win, and every other parent value is kept. |
| Instances.NewInstance | pwnchain_module.py:47-55 | Construction succeeds exactly when the name template is closed over the initial scope, and the instance's scope is that scope. Otherwise it fails with an unbound name that the scope lacks. |
| Instances.DeclaredVarsWin | pwnchain_module.py:52-54 | After construction, a declared name holds its declared value whatever the parent held. An undeclared name is present exactly when the parent has it, with the parent's value. |
| Gate.ShouldNotRun | pwnchain_module.py:114-127 | The node is skipped exactly when `enabled` is false, or a present condition resolves and evaluates false. It runs exactly when not disabled and the condition is absent or true. It fails only when not disabled and the condition is present, either with the condition's unbound name or with a condition-evaluation error. |
| Gate.DisabledIgnoresCondition | pwnchain_module.py:116-119 | A disabled node is skipped whatever its condition and whatever `eval` would do. |
| Files.UnpackFrom | pwnchain_module.py:153-163 | Unpacking from file `i` on succeeds exactly when every one of those files can be written: a base64 payload must decode and a URL must be fetched, while text and unrecognised kinds always can. |
| Files.UnpackFiles | pwnchain_module.py:149-163 | Unpacking succeeds exactly when every file can be written. On failure it reports the first file that cannot. On success the keys are the old keys plus the declared names, undeclared names keep their values, and each name holds the temporary path of its last declaration. |
| Patterns.CompilePatterns | pwnchain_module.py:74-84 | Compilation succeeds exactly when every source resolves and compiles. The result has one entry per pattern, in declared order, holding the resolved source and the raw group and log templates. A failure reports the first pattern that does not compile, with its unbound field or its rejected source. |
| Patterns.CompileFrom | pwnchain_module.py:74-84 | Compiling succeeds exactly when every pattern's source resolves and compiles. |
| Patterns.CompileFromFailure | pwnchain_module.py:75-81 | A failed compilation stops at the first pattern that does not compile, with every earlier one compiling. It reports that source's leftmost unbound field, or the resolved source when `re.compile` rejects it. |
| Patterns.CompiledEntries | pwnchain_module.py:75-83 | A successful compilation holds one entry per pattern, in declared order, each with its resolved source and its raw group and log templates. |
| Patterns.AssignSpec | pwnchain_module.py:96-98 | A run of assignments adds exactly the assigned names and changes no other variable. A name ends with the value of its last assignment. |
| Patterns.BindFrom | pwnchain_module.py:95-98 | On success there is one name per group, and the names already bound are kept as a prefix. A regex with fewer groups than names always fails. A `NoSuchGroup` failure happens only then, and names the group index one past the regex's last group. The only other failure is a variable that the inherited scope lacks. |
| Patterns.BindFromFailure | pwnchain_module.py:95-98 | An unbound capture name is reported for the first group whose name template does not resolve. Each earlier group's name resolved against the scope holding the inherited variables and the captures before it. The failing template is resolved against that same scope, so it may use every earlier capture of the match. |
| Patterns.BindFromResolves | pwnchain_module.py:96-97 | Each capture name is its group template resolved against the scope that already holds this match's earlier captures, so a later name may use an earlier capture. |
| Patterns.BindFromSucceeds | pwnchain_module.py:95-98 | Binding cannot fail when the regex has at least as many groups as names and every remaining name template needs only the inherited scope. |
| Patterns.Bind | pwnchain_module.py:95-98 | The same, from the first group. Binding succeeds whenever the regex has enough groups and every name template is closed over the inherited scope. It fails when the regex has too few groups. An unbound name is the one missing from the first group template that does not resolve, after every earlier group bound its name against the scope holding the captures before it. |
| Patterns.CapturedSpec | pwnchain_module.py:95-98 | After binding, the scope holds the old keys plus the capture names. Capture `i` is stored under name `i` (the last one wins on a repeat), and no other variable changes. A group that took no part in the match is stored as the text `None`. |
| Worker.SpawnAll | pwnchain_module.py:109-111 | Starting a list of children emits one start per child, in declared order, each in the given group and each with the same scope. |
| Worker.SpawnAllSpawned | pwnchain_module.py:108-111 | Triggering a group starts each child once, in declared order, all in that group and none in the other. |
| Worker.Constructible | pwnchain_module.py:109-110 | Counts the children, from the first, whose construction succeeds: all before the count succeed, and the one at the count, if any, raises. |
| Worker.Trigger | pwnchain_module.py:106-111 | The children started are the group's declared prefix, each with the same scope. The trigger completes exactly when every child can be constructed. Otherwise the first child that cannot be constructed ends it with its error. |
| Worker.LogEvents | pwnchain_module.py:99-100 | A match logs exactly one message when the raw log template is present and not blank, resolved against the given scope. A blank or missing template logs nothing. |
| Worker.OnMatchStep | pwnchain_module.py:95-101 | One match starts only `on_match` children, never `always` ones. When nothing raises, it starts the whole `on_match` group. |
| Worker.MatchTrace | pwnchain_module.py:95-111 | What one match emits on each path. A failed binding emits nothing, keeps the scope and reports the binding error. An unbound log message emits nothing, keeps the captures and reports the missing name; it is raised before any child starts. Otherwise the match emits the info message, if the pattern has one, followed by the `on_match` children that can be built from the front of the group. It stops at the first that cannot, with that child's error. |
| Worker.MatchRaises | pwnchain_module.py:95-101 | A match raises nothing exactly when its captures bind, its log message (if any) resolves against the scope holding them, and every `on_match` child can be constructed from that scope. |
| Worker.MatchSnapshot | pwnchain_module.py:95-101 | When nothing raises, the captures are bound before the message is resolved. The trace is that message followed by every `on_match` child, started with the scope holding this match's captures. |
| Worker.TryPattern | pwnchain_module.py:93-101 | One pattern on one line raises nothing exactly when the pattern does not match, or its match binds, logs and constructs every `on_match` child without error. |
| Worker.TryPatternCascade | pwnchain_module.py:93-101 | One pattern triggers the `on_match` group once if it matches the line, and not at all otherwise. A pattern that does not match leaves the trace and the scope unchanged. |
| Worker.ScanPatterns | pwnchain_module.py:92-101 | Trying every pattern on one line starts only `on_match` children, never `always` ones. |
| Worker.ScanLines | pwnchain_module.py:91-101 | The whole output loop starts only `on_match` children, never `always` ones. |
| Worker.ScanPatternsCascade | pwnchain_module.py:92-101 | One line triggers the whole `on_match` group once per matching pattern. |
| Worker.ScanLinesCascade | pwnchain_module.py:91-101 | The stream triggers the whole `on_match` group exactly once per matching (line, pattern) pair. |
| Worker.ScanPatternsNoMatch | pwnchain_module.py:92-94 | A line that no pattern matches emits nothing and leaves the scope as it was. |
| Worker.ScanLinesNoMatch | pwnchain_module.py:91-94 | Output in which no pattern matches any line emits nothing and leaves the scope as it was. |
| Worker.Prepare | pwnchain_module.py:72-87 | Preparation succeeds exactly when the command resolves, every pattern compiles, and the log-file path resolves if a log directory is given. The log file is `dir/name` exactly when a directory is given and the node has a log file. The errors come in source order: the command's unbound name, then the first pattern's compile error, then the log path's unbound name. |
| Worker.Launch | pwnchain_module.py:71-91 | A launch unpacks the files first. It prepares the job against the scope holding the file paths and reads the output of the resolved command. It succeeds exactly when every file is written, the job is prepared and the command starts. A file that cannot be written fails it with a provisioning error, a preparation error is passed on, and a command that cannot start fails it with `SpawnError`. |
| Worker.Finish | pwnchain_module.py:103 | After the stream the run always reaches the `always` group. Every child started belongs to its own group. The finish completes exactly when every `always` child can be constructed from the scope the stream left, and then it adds the whole group to the trace, in order. A failed finish has started only a proper prefix of the group. |
| Worker.RunWorker | pwnchain_module.py:68-103 | The run is skipped exactly when the gate says skip. Every started child belongs to the group it was started in. A completed run starts the whole `always` group. A gate or launch failure emits nothing. |
| WorkerProperties.CascadeCounts | pwnchain_module.py:91-103 | A completed run passed its gate and launched. It started the `on_match` group once per matching (line, pattern) pair and the `always` group exactly once, last, with the scope the stream left. |
| WorkerProperties.RunCompletes | pwnchain_module.py:68-103 | A run completes exactly when the gate lets it through, the launch succeeds, the stream raises nothing and every `always` child can be constructed. A run that meets these conditions is the stream's trace followed by the whole `always` group. |
| WorkerProperties.StreamRaiseSkipsAlways | pwnchain_module.py:91-103 | When the output loop raises, the run fails with exactly the stream's events so far and the stream's error, and starts no `always` child. |
| WorkerProperties.NoMatchOnlyAlways | pwnchain_module.py:91-103 | When no pattern matches any output line, a run that passes its gate and launches emits exactly the `always` group, started with the scope holding the node's files. This holds whenever those children can be constructed. |
| WorkerProperties.NoOutputOnlyAlways | pwnchain_module.py:91-103 | The same when the command prints nothing. |
| WorkerProperties.ConditionCannotSeeFiles | pwnchain_module.py:70-72 | The gate runs before files are bound. A condition that mentions one of the node's own files, when the inherited scope lacks that name, fails the node with nothing emitted and an unbound name the scope lacks. A condition that is just that file's field fails on the file's name. |
| WorkerProperties.DisabledRunsNothing | pwnchain_module.py:70-71 | A disabled node is skipped, so it emits nothing and starts no child. |
| WorkerProperties.ScanPatternsIsStream | pwnchain_module.py:92-101 | Trying the patterns on one line is a left-to-right pass over them. Each pattern starts from the scope the previous one left, and the pass stops at the first that raises. |
| WorkerProperties.ScanPatternsAppend | pwnchain_module.py:92-101 | Patterns run in declared order: for a list split in two, if the first part raises nothing, the trace is the first part's events followed by the second part's, with the second part started from the scope the first left. |
| WorkerProperties.ScanPatternsOne | pwnchain_module.py:92-101 | A single pattern on a line is exactly one try of that pattern. |
| WorkerProperties.ScanLinesAppend | pwnchain_module.py:91-101 | The events of an earlier batch of lines stand unchanged at the head of the trace, each spawn with the scope it was given. Later lines continue from the scope that batch left, so no later capture reaches an earlier child. |
| Tree.TreeLogs | pwnchain_module.py:106-111 | A node that cannot be constructed or is skipped logs nothing in the whole subtree. |
| Tree.EventLogs | pwnchain_module.py:99-101 | A trace of messages only logs those messages, in order. |
| Tree.EventLogsAppend | pwnchain_module.py:91-103 | The messages of a trace split with the trace. A child's messages come after everything its parent logged before starting it. In this sequential order they also come before anything the parent logs later; threads need not keep that second part. |
| Tree.EventLogsOwn | pwnchain_module.py:99-111 | When no started child logs anything, a trace logs exactly its own messages, in order. |
| Tree.WithinNothing | pwnchain_module.py:106-108 | A node with empty submodule groups starts no child. |
| Tree.TreeLogsOwn | pwnchain_module.py:68-111 | A node that runs, and whose started children log nothing, logs exactly its own messages in order. A node without submodules always does. |
| Tree.RootLogs | pwnchain_module.py:47-55 | The root is constructed from an empty scope. Its messages are empty when its name needs more than its own `vars`, or when its gate skips it. Otherwise they are the messages of its run in the scope of exactly its `vars`. |
| Fixture.GateFixture | pwnchain_module.py:246-257 | With the test configuration: run by default, run when enabled, skip when disabled, run on `True`, skip on `False`. |
| Fixture.UnpackFixture | pwnchain_module.py:233-239 | `file1` and `file2` are unbound before unpacking and bound to their temporary paths after. |
| Fixture.RootRun | pwnchain_module.py:181-201 | The test root logs `fo`, then starts its `on_match` child and its `always` child, both with `var2 = fo` in their scope. |
| Fixture.AlwaysChildLogs | pwnchain_module.py:191-200 | The `always` child, constructed from the root's scope after its match, logs exactly `fo4` in its whole subtree: its own `var3` and the inherited `var2` make the command `echo fo42`. |
| Fixture.RunFixture | pwnchain_module.py:260-265 | The whole test tree logs `fo`, then `fo4`, for any oracles that answer as `echo`, `re` and `eval` do on its inputs. |

## Behaviour of the code worth noting

- A file's `content` is written as given. The code never passes it through
  `format` (lines 158-163).
- An exception in the middle of the output loop ends the thread before line
  103, so such a run never starts its `always` group. It returns `Failed` with
  only the events emitted so far (`WorkerProperties.StreamRaiseSkipsAlways`).
- The remote file kind is spelled `wget` (line 162). A kind the code does not
  recognise creates an empty file and still binds the name (`OtherKind`).
- Pattern sources are resolved once, before the command runs (lines 76-84).
  Captures made during the stream never change the patterns of the same node.
  Log messages and capture names, by contrast, are resolved at each match.
- A child's name template is resolved inside `Module.__init__`, which runs in
  the parent's thread (line 110). An unbound name there fails the parent run
  (`Trigger` reports it).

## Left out

- Threads, `thread_pool`, `run` and `wait_until_complete` (lines 61-65,
  166-170). The model is sequential: a child's run is placed at its `Spawn`
  event, in trigger order. `Tree.TreeLogs` gives one interleaving of the
  messages; real threads may interleave them differently.
- `exec_cmd` (lines 130-146): `Popen`, `cmd.split()`, the log-file tee, and
  the warning when the log file cannot be opened. These are I/O. The command's
  output is the `output` oracle applied to the resolved command; `None` models
  a command that cannot be started.
- File contents, `NamedTemporaryFile`, `b64decode` and `urlopen` (lines
  155-163). Only the binding of a name to a path is kept. The path is the
  oracle's `tempPath(i)` for the file's position, and whether a payload decodes
  or a URL can be fetched are the `base64Ok` and `fetchOk` oracles. Because
  `tempPath(i)` depends only on the position, every node and every run gets the
  same path for its `i`-th file, where `NamedTemporaryFile` creates a fresh
  name each time. No property proved here depends on paths being distinct.
- `eval` of the condition (line 122). It is the `evalCond` oracle; `None`
  models an expression that raises. Python truthiness of non-boolean results
  is folded into that oracle.
- The `re` engine (lines 81, 93). `compiles` and `matcher` are oracles. The
  matcher returns the values of all the regex's groups, `None` for a group that
  did not take part, which `str.format` prints as `None`.
- The `logging` setup, handlers and debug messages (lines 55-57, 88-89, 118,
  123, 125, 141, 154). Only the info messages of line 100 are modelled, as
  `Log` events. The logger's name is resolved (so its failure is kept), but it
  is not otherwise used.
- Format specifications, conversions, escaped braces, indexing and attribute
  access in templates. A template is a sequence of literal text and plain
  `{name}` fields.
- Variable values that are not strings (such as `'var3': 42`). They are held
  in the text form `str.format` prints (`"42"`).
- `save_logfiles` is modelled as a directory string. `""` stands for a falsy
  value; any other value for a truthy one.
- Pattern entries without a `groups` list, and `cfg` without `cmd` or `name`.
  These raise `KeyError` in the code; the model's definitions always carry
  them.
- tests/test_config.py, which tests configuration helpers that are not part of
  this model, and the `exec_cmd` and file-content checks of the embedded tests
  (lines 224-230, 240-243), which are about I/O.
- Tree.EventLogs: states the messages of a trace only when the trace holds no
  `Spawn` events. `Tree.EventLogsOwn` covers traces whose children log nothing,
  and `Tree.EventLogsAppend` the order around a child. A child that does log
  is covered by the fixture.

=== FILE: definitions.dfy ===
/**
 The execution-tree definition a `Module` is built from (its `cfg`
 dictionary), the errors a node's run can raise, and the oracles that stand in
 for what the engine calls but does not define: Python's `eval`, the `re`
 engine, `Popen`, `NamedTemporaryFile`, `b64decode` and `urlopen`.
 */
module Definitions {
  import opened Wrappers
  import opened Templates

  /** The `type` of a `files` entry; any other string still creates an empty file. */
  datatype FileKind = Text | Base64 | Wget | OtherKind(tag: string)

  /** A `files` entry. Its `name` and `content` are used as written, not as templates. */
  datatype FileDef = FileDef(name: string, kind: FileKind, content: string)

  /** A `patterns` entry: regex source, capture-variable names, optional log message.
      An absent `log` key and an explicit `None` are both `None` here. */
  datatype PatternDef = PatternDef(source: Template, groups: seq<Template>, log: Option<Template>)

  /** One node of the execution tree. An absent `vars`, `patterns`, `files` or
      submodule group is the empty collection; `vars` values are held in the
      text form `str.format` prints for them (`42` becomes "42"). */
  datatype NodeDef = NodeDef(
    name: Template,
    cmd: Template,
    vars: Scope,
    enabled: Option<bool>,
    condition: Option<Template>,
    patterns: seq<PatternDef>,
    files: seq<FileDef>,
    logfile: Option<Template>,
    onMatch: seq<NodeDef>,
    always: seq<NodeDef>)

  /** The exceptions that end a node's worker thread. */
  datatype Error =
    | UnresolvedVariable(name: string)    // `str.format` raised `KeyError`
    | ConditionError(condition: string)   // `eval` of the resolved condition raised
    | ProvisioningError(file: string)     // `b64decode` or `urlopen` raised
    | PatternCompileError(source: string) // `re.compile` raised
    | SpawnError(cmd: string)             // `Popen` raised
    | NoSuchGroup(index: nat)             // `match.group(index)` raised `IndexError`

  /** The collaborators the engine calls but does not define. */
  datatype Oracles = Oracles(
    // `eval` of a resolved condition: its truth value, or None when it raises
    evalCond: string -> Option<bool>,
    // the name `NamedTemporaryFile` gives the node's i-th declared file
    tempPath: nat -> string,
    // whether `b64decode` accepts the payload
    base64Ok: string -> bool,
    // whether `urlopen(...).read()` succeeds for the URL
    fetchOk: string -> bool,
    // whether `re.compile` accepts the resolved source
    compiles: string -> bool,
    // `re.compile(source).match(line)`: None for no match, else groups 1..n
    // (a group that did not participate is None)
    matcher: (string, string) -> Option<seq<Option<string>>>,
    // the lines `Popen(cmd.split())` writes to stdout, or None when it cannot be spawned
    output: string -> Option<seq<string>>)
}

=== FILE: files.dfy ===
/** `Module.unpack_files`, reduced to what it does to the scope: each declared
    file name is bound to the path of a fresh temporary file. */
module Files {
  import opened Wrappers
  import opened Templates
  import opened Definitions

  /** Whether the content of `f` can be written: text (and any unknown kind)
      always can; a base64 payload must decode and a URL must be fetched. */
  predicate Written(f: FileDef, o: Oracles) {
    match f.kind
    case Text => true
    case Base64 => o.base64Ok(f.content)
    case Wget => o.fetchOk(f.content)
    case OtherKind(_) => true
  }

  /** No later entry of `files` declares the same name as entry `j`. */
  predicate LastDeclared(files: seq<FileDef>, j: int)
    requires 0 <= j < |files|
  {
    forall j' :: j < j' < |files| ==> files[j'].name != files[j].name
  }

  /** The names declared by `files[i..]`. */
  function Declared(files: seq<FileDef>, i: nat): set<string>
    requires i <= |files|
  {
    set j | i <= j < |files| :: files[j].name
  }

  /** Processes `files[i..]` in order; entry `j` is bound to `o.tempPath(j)`.
      The lemmas below state what it does to the scope. */
  function UnpackFrom(files: seq<FileDef>, i: nat, scope: Scope, o: Oracles): (r: Result<Scope, Error>)
    requires i <= |files|
    ensures r.Success? <==> forall j :: i <= j < |files| ==> Written(files[j], o)
    decreases |files| - i
  {
    if i == |files| then Success(scope)
    else if !Written(files[i], o) then Failure(ProvisioningError(files[i].name))
    else UnpackFrom(files, i + 1, scope[files[i].name := o.tempPath(i)], o)
  }

  /** A failed unpack names the first file whose content cannot be written. */
  lemma {:induction false} UnpackFromFailure(files: seq<FileDef>, i: nat, scope: Scope, o: Oracles)
    requires i <= |files| && UnpackFrom(files, i, scope, o).Failure?
    ensures exists j :: (i <= j < |files| && !Written(files[j], o) &&
      UnpackFrom(files, i, scope, o).error == ProvisioningError(files[j].name) &&
      forall j' :: i <= j' < j ==> Written(files[j'], o))
    decreases |files| - i
  {
    if Written(files[i], o) {
      UnpackFromFailure(files, i + 1, scope[files[i].name := o.tempPath(i)], o);
    }
  }

  /** A successful unpack adds exactly the declared names and keeps every other variable. */
  lemma {:induction false} UnpackFromKeys(files: seq<FileDef>, i: nat, scope: Scope, o: Oracles)
    requires i <= |files| && UnpackFrom(files, i, scope, o).Success?
    ensures UnpackFrom(files, i, scope, o).value.Keys == scope.Keys + Declared(files, i)
    ensures forall k :: k in scope && k !in Declared(files, i) ==> UnpackFrom(files, i, scope, o).value[k] == scope[k]
    decreases |files| - i
  {
    if i < |files| {
      UnpackFromKeys(files, i + 1, scope[files[i].name := o.tempPath(i)], o);
      assert Declared(files, i) == {files[i].name} + Declared(files, i + 1);
    }
  }

  /** After a successful unpack each declared name holds the path of its last declaration. */
  lemma {:induction false} UnpackFromLast(files: seq<FileDef>, i: nat, scope: Scope, o: Oracles)
    requires i <= |files| && UnpackFrom(files, i, scope, o).Success?
    ensures forall j :: i <= j < |files| ==> files[j].name in UnpackFrom(files, i, scope, o).value
    ensures forall j :: i <= j < |files| && LastDeclared(files, j) ==>
      UnpackFrom(files, i, scope, o).value[files[j].name] == o.tempPath(j)
    decreases |files| - i
  {
    if i < |files| {
      var inner := scope[files[i].name := o.tempPath(i)];
      var r := UnpackFrom(files, i + 1, inner, o).value;
      assert UnpackFrom(files, i, scope, o).value == r;
      UnpackFromKeys(files, i + 1, inner, o);
      UnpackFromLast(files, i + 1, inner, o);
      forall j | i <= j < |files|
        ensures files[j].name in r
        ensures LastDeclared(files, j) ==> r[files[j].name] == o.tempPath(j)
      {
        if j == i && LastDeclared(files, i) {
          assert files[i].name !in Declared(files, i + 1);
        }
      }
    }
  }

  /** All of the node's `files`, from the first. */
  function UnpackFiles(files: seq<FileDef>, scope: Scope, o: Oracles): (r: Result<Scope, Error>)
    ensures r.Success? <==> forall j :: 0 <= j < |files| ==> Written(files[j], o)
    ensures r.Failure? ==>
      exists j :: 0 <= j < |files| && !Written(files[j], o) && r.error == ProvisioningError(files[j].name) &&
        forall j' :: 0 <= j' < j ==> Written(files[j'], o)
    ensures r.Success? ==> r.value.Keys == scope.Keys + Declared(files, 0)
    ensures r.Success? ==> forall k :: k in scope && k !in Declared(files, 0) ==> r.value[k] == scope[k]
    ensures r.Success? ==>
      forall j :: 0 <= j < |files| && LastDeclared(files, j) ==> r.value[files[j].name] == o.tempPath(j)
  {
    var r := UnpackFrom(files, 0, scope, o);
    if r.Failure? then
      UnpackFromFailure(files, 0, scope, o);
      r
    else
      UnpackFromKeys(files, 0, scope, o);
      UnpackFromLast(files, 0, scope, o);
      r
  }
}

=== FILE: fixture.dfy ===
/**
 The execution tree of the module's own unit tests: a root that echoes `foo`,
 captures `fo` from it, starts an `on_match` child, and an `always` child that
 declares `var3 = 42` and captures `fo4` from `echo fo42`. The oracles behave
 as `echo`, `re` and `eval` do on exactly the inputs this tree gives them.
 */
module Fixture {
  import opened Wrappers
  import opened Templates
  import opened Definitions
  import opened Instances
  import opened Gate
  import opened Files
  import opened Patterns
  import opened Worker
  import opened Tree

  const OnMatchChild := NodeDef(
    [Lit("on-match")], [Lit("echo "), Var("var2")], map[], None, None, [], [], None, [], [])

  const AlwaysChild := NodeDef(
    [Lit("always")], [Lit("echo "), Var("var2"), Var("var3")], map["var3" := "42"], None, None,
    [PatternDef([Lit("(fo[0-9])[0-9]")], [[Lit("var4")]], Some([Var("var4")]))],
    [], None, [], [])

  const Root := NodeDef(
    [Lit("unittest")], [Lit("echo "), Var("var1")], map["var1" := "foo"], None, None,
    [PatternDef([Lit("(fo)o")], [[Lit("var2")]], Some([Var("var2")]))],
    [FileDef("file1", Text, "some text\non two lines\n"),
     FileDef("file2", Base64, "c29tZSB0ZXh0Cm9uIHR3byBsaW5lcwo=")],
    None, [OnMatchChild], [AlwaysChild])

  /** `echo` prints its argument and a newline. */
  function Echo(cmd: string): Option<seq<string>> {
    if |cmd| >= 5 && cmd[..5] == "echo " then Some([cmd[5..] + "\n"]) else None
  }

  /** `re.compile(src).match(line)` for the two patterns of the tree. */
  function Match(src: string, line: string): Option<seq<Option<string>>> {
    if src == "(fo)o" && |line| >= 3 && line[..3] == "foo" then Some([Some("fo")])
    else if src == "(fo[0-9])[0-9]" && |line| >= 4 && line[..4] == "fo42" then Some([Some("fo4")])
    else None
  }

  /** `eval` of the two conditions the tests use. */
  function Eval(c: string): Option<bool> {
    if c == "True" then Some(true) else if c == "False" then Some(false) else None
  }

  function TempName(i: nat): string {
    if i == 0 then "/tmp/tmpa" else "/tmp/tmpb"
  }

  const O := Oracles(
    Eval, TempName, c => c == "c29tZSB0ZXh0Cm9uIHR3byBsaW5lcwo=", _ => false, _ => true, Match, Echo)

  /** What the tree asks of its oracles, and what `echo`, `re` and `eval` answer. */
  predicate Behaves(o: Oracles) {
    && o.evalCond("True") == Some(true) && o.evalCond("False") == Some(false)
    && o.tempPath(0) == "/tmp/tmpa" && o.tempPath(1) == "/tmp/tmpb"
    && o.base64Ok("c29tZSB0ZXh0Cm9uIHR3byBsaW5lcwo=")
    && o.compiles("(fo)o") && o.compiles("(fo[0-9])[0-9]")
    && o.output("echo foo") == Some(["foo\n"])
    && o.output("echo fo") == Some(["fo\n"])
    && o.output("echo fo42") == Some(["fo42\n"])
    && o.matcher("(fo)o", "foo\n") == Some([Some("fo")])
    && o.matcher("(fo[0-9])[0-9]", "fo42\n") == Some([Some("fo4")])
  }

  /** The stand-in oracles answer as the real ones do on the tree's inputs. */
  lemma StandInBehaves()
    ensures Behaves(O)
  {
    assert "echo foo"[5..] + "\n" == "foo\n";
    assert "echo fo"[5..] + "\n" == "fo\n";
    assert "echo fo42"[5..] + "\n" == "fo42\n";
    assert "foo\n"[..3] == "foo";
    assert "fo42\n"[..4] == "fo42";
  }

  const RootScope: Scope := map["var1" := "foo"]
  const FileScope: Scope := RootScope["file1" := "/tmp/tmpa"]["file2" := "/tmp/tmpb"]
  const MatchScope: Scope := FileScope["var2" := "fo"]

  /** The gate decisions the `should_not_run` test expects: run, run when
      enabled, skip when disabled, run on `True`, skip on `False`. */
  lemma GateFixture(o: Oracles)
    requires Behaves(o)
    ensures ShouldNotRun(Root, RootScope, o) == Success(false)
    ensures ShouldNotRun(Root.(enabled := Some(true)), RootScope, o) == Success(false)
    ensures ShouldNotRun(Root.(enabled := Some(false)), RootScope, o) == Success(true)
    ensures ShouldNotRun(Root.(enabled := Some(true), condition := Some([Lit("True")])), RootScope, o) == Success(false)
    ensures ShouldNotRun(Root.(enabled := Some(true), condition := Some([Lit("False")])), RootScope, o) == Success(true)
  {
    assert Resolve([Lit("True")], RootScope) == Success("True" + "");
    assert "True" + "" == "True";
    assert Resolve([Lit("False")], RootScope) == Success("False" + "");
    assert "False" + "" == "False";
  }

  /** Unpacking the root's files binds `file1` and `file2`, absent before. */
  lemma UnpackFixture(o: Oracles)
    requires Behaves(o)
    ensures "file1" !in RootScope && "file2" !in RootScope
    ensures UnpackFiles(Root.files, RootScope, o) == Success(FileScope)
  {
  }

  const RootJob := Job("echo foo", [Compiled("(fo)o", [[Lit("var2")]], Some([Var("var2")]))], None)
  const AlwaysScope: Scope := MatchScope["var3" := "42"]
  const AlwaysJob := Job("echo fo42", [Compiled("(fo[0-9])[0-9]", [[Lit("var4")]], Some([Var("var4")]))], None)
  const CaptureScope: Scope := AlwaysScope["var4" := "fo4"]

  /** The root is named `unittest` and its scope is its declared variables. */
  lemma RootInstance(o: Oracles)
    requires Behaves(o)
    ensures NewInstance(Root, map[]) == Success(Instance("unittest", RootScope))
  {
    assert Resolve(Root.name, map[] + Root.vars) == Success("unittest" + "");
    assert "unittest" + "" == "unittest";
    assert map[] + Root.vars == RootScope;
  }

  /** `echo {var1}` against the root's scope. */
  lemma RootCommand()
    ensures Resolve([Lit("echo "), Var("var1")], FileScope) == Success("echo foo")
  {
    assert Resolve([Var("var1")], FileScope) == Success("foo" + "");
    assert [Lit("echo "), Var("var1")][1..] == [Var("var1")];
    assert "echo " + ("foo" + "") == "echo foo";
  }

  /** The root's one pattern compiles as written. */
  lemma RootCompile(o: Oracles)
    requires Behaves(o)
    ensures CompilePatterns(Root.patterns, FileScope, o) == Success(RootJob.patterns)
  {
    assert Resolve([Lit("(fo)o")], FileScope) == Success("(fo)o") by {
      assert "(fo)o" + "" == "(fo)o";
    }
    assert Root.patterns[1..] == [];
    assert [RootJob.patterns[0]] + [] == RootJob.patterns;
  }

  /** The root binds its files, then runs `echo foo`. */
  lemma RootLaunch(o: Oracles)
    requires Behaves(o)
    ensures Launch(Root, RootScope, "", o) == Success(Launched(FileScope, RootJob, ["foo\n"]))
  {
    UnpackFixture(o);
    RootCommand();
    RootCompile(o);
    assert Prepare(Root, FileScope, "", o) == Success(RootJob);
  }

  /** A single literal group name binds to itself. */
  lemma BindOne(name: string, cap: string, scope: Scope)
    ensures Bind([[Lit(name)]], [Some(cap)], scope) == Success([name])
  {
    var t := [Lit(name)];
    assert Resolve(t, Assign(scope, [], Texts([Some(cap)])[..0])) == Success(name + "") by {
      assert t[1..] == [];
    }
    assert name + "" == name;
    assert [] + [name] == [name];
    assert BindFrom([t], [Some(cap)], scope, [name]) == Success([name]);
  }

  /** A single capture is stored under its name. */
  lemma CaptureOne(name: string, cap: string, scope: Scope)
    ensures Captured(scope, [name], [Some(cap)]) == scope[name := cap]
  {
    assert Texts([Some(cap)])[..1] == [cap];
    assert [name][..0] == [] && [cap][..0] == [];
    assert Assign(scope, [], []) == scope;
  }

  /** `(fo)o` captures `fo` into `var2`. */
  lemma RootCapture()
    ensures Bind([[Lit("var2")]], [Some("fo")], FileScope) == Success(["var2"])
    ensures Captured(FileScope, ["var2"], [Some("fo")]) == MatchScope
  {
    BindOne("var2", "fo", FileScope);
    CaptureOne("var2", "fo", FileScope);
  }

  /** `{var2}` is logged as `fo` once the capture is bound. */
  lemma RootMessage()
    ensures LogEvents(RootJob.patterns[0], MatchScope) == Success([Log("fo")])
  {
    assert !Blank([Var("var2")]) by { assert [Var("var2")][0] != Lit(""); }
    assert Resolve([Var("var2")], MatchScope) == Success("fo" + "");
    assert "fo" + "" == "fo";
  }

  /** Both children of the root can be constructed from the scope holding `var2`. */
  lemma RootTriggers()
    ensures Trigger(OnMatch, Root.onMatch, MatchScope) ==
      Partial([Spawn(OnMatch, OnMatchChild, MatchScope)], MatchScope, None)
    ensures Trigger(Always, Root.always, MatchScope) ==
      Partial([Spawn(Always, AlwaysChild, MatchScope)], MatchScope, None)
  {
    assert Closed(OnMatchChild.name, InitScope(OnMatchChild, MatchScope));
    assert Closed(AlwaysChild.name, InitScope(AlwaysChild, MatchScope));
  }

  /** `(fo)o` matches `foo`: `var2` becomes `fo`, `fo` is logged and the `on_match` child starts. */
  lemma RootMatch()
    ensures OnMatchStep(RootJob.patterns[0], [Some("fo")], Root.onMatch, FileScope) ==
      Partial([Log("fo"), Spawn(OnMatch, OnMatchChild, MatchScope)], MatchScope, None)
  {
    RootCapture();
    RootMessage();
    RootTriggers();
  }

  /** One output line against one pattern is that pattern's attempt on it. */
  lemma SingleScan(p: Compiled, line: string, onMatch: seq<NodeDef>, scope: Scope, o: Oracles)
    requires TryPattern(p, line, onMatch, scope, o).err.None?
    ensures ScanLines([line], [p], onMatch, scope, o) == TryPattern(p, line, onMatch, scope, o)
  {
    var r := TryPattern(p, line, onMatch, scope, o);
    assert [p][1..] == [] && [line][1..] == [];
    assert r.events + [] == r.events;
    assert ScanPatterns([p], line, onMatch, scope, o) == r;
  }

  /** The root's single output line, against its single pattern. */
  lemma RootScan(o: Oracles)
    requires Behaves(o)
    ensures ScanLines(["foo\n"], RootJob.patterns, Root.onMatch, FileScope, o) ==
      Partial([Log("fo"), Spawn(OnMatch, OnMatchChild, MatchScope)], MatchScope, None)
  {
    var p := Compiled("(fo)o", [[Lit("var2")]], Some([Var("var2")]));
    assert RootJob.patterns == [p];
    RootMatch();
    assert TryPattern(p, "foo\n", Root.onMatch, FileScope, o).err.None?;
    SingleScan(p, "foo\n", Root.onMatch, FileScope, o);
  }

  /** A run that passes its gate, launches and streams without raising ends in `Finish`. */
  lemma StreamsTo(def: NodeDef, scope: Scope, o: Oracles, l: Launched, scan: Partial)
    requires ShouldNotRun(def, scope, o) == Success(false)
    requires Launch(def, scope, "", o) == Success(l)
    requires ScanLines(l.lines, l.job.patterns, def.onMatch, l.scope, o) == scan && scan.err.None?
    ensures RunWorker(def, scope, "", o) == Finish(def, scan)
  {
  }

  /** The root's own run: it logs `fo`, then starts its `on_match` child and
      its `always` child, both with the scope holding `var2 = fo`. */
  lemma RootRun(o: Oracles)
    requires Behaves(o)
    ensures RunWorker(Root, RootScope, "", o) ==
      Ran([Log("fo"), Spawn(OnMatch, OnMatchChild, MatchScope), Spawn(Always, AlwaysChild, MatchScope)], Completed)
  {
    var scan := Partial([Log("fo"), Spawn(OnMatch, OnMatchChild, MatchScope)], MatchScope, None);
    assert RunWorker(Root, RootScope, "", o) == Finish(Root, scan) by {
      GateFixture(o);
      RootLaunch(o);
      RootScan(o);
      StreamsTo(Root, RootScope, o, Launched(FileScope, RootJob, ["foo\n"]), scan);
    }
    RootFinish();
  }

  /** After its output, the root starts its `always` child with the final scope. */
  lemma RootFinish()
    ensures var scan := Partial([Log("fo"), Spawn(OnMatch, OnMatchChild, MatchScope)], MatchScope, None);
      && Within(scan.events, Root.onMatch, []) && SpawnedChildren(scan.events, Always) == []
      && Finish(Root, scan) ==
         Ran([Log("fo"), Spawn(OnMatch, OnMatchChild, MatchScope), Spawn(Always, AlwaysChild, MatchScope)], Completed)
  {
    var events := [Log("fo"), Spawn(OnMatch, OnMatchChild, MatchScope)];
    assert events[1..][1..] == [];
    assert SpawnedChildren(events[1..], Always) == [] + [];
    assert SpawnedChildren(events, Always) == [] + [];
    assert Within(events, Root.onMatch, []);
    RootTriggers();
    assert [Log("fo"), Spawn(OnMatch, OnMatchChild, MatchScope)] + [Spawn(Always, AlwaysChild, MatchScope)] ==
      [Log("fo"), Spawn(OnMatch, OnMatchChild, MatchScope), Spawn(Always, AlwaysChild, MatchScope)];
  }

  /** The `on_match` child inherits the scope unchanged and runs `echo fo`. */
  lemma OnMatchInstance()
    ensures NewInstance(OnMatchChild, MatchScope) == Success(Instance("on-match", MatchScope))
  {
    assert InitScope(OnMatchChild, MatchScope) == MatchScope;
    assert Resolve(OnMatchChild.name, MatchScope) == Success("on-match" + "");
    assert "on-match" + "" == "on-match";
  }

  /** The `on_match` child runs `echo fo`. */
  lemma OnMatchLaunch(o: Oracles)
    requires Behaves(o)
    ensures Launch(OnMatchChild, MatchScope, "", o) == Success(Launched(MatchScope, Job("echo fo", [], None), ["fo\n"]))
  {
    assert Resolve(OnMatchChild.cmd, MatchScope) == Success("echo fo") by {
      assert Resolve(OnMatchChild.cmd[1..], MatchScope) == Success("fo" + "");
      assert "echo " + ("fo" + "") == "echo fo";
    }
  }

  /** The `on_match` child echoes `fo`, has no patterns and logs nothing. */
  lemma OnMatchChildLogs(o: Oracles)
    requires Behaves(o)
    ensures TreeLogs(OnMatchChild, MatchScope, "", o) == []
  {
    OnMatchInstance();
    OnMatchLaunch(o);
    assert ScanLines(["fo\n"], [], [], MatchScope, o) == Partial([], MatchScope, None);
    assert RunWorker(OnMatchChild, MatchScope, "", o) == Ran([], Completed);
  }

  /** `echo {var2}{var3}` against the `always` child's scope. */
  lemma AlwaysCommand()
    ensures Resolve([Lit("echo "), Var("var2"), Var("var3")], AlwaysScope) == Success("echo fo42")
  {
    var t := [Lit("echo "), Var("var2"), Var("var3")];
    assert Resolve(t[2..], AlwaysScope) == Success("42" + "");
    assert t[1..][1..] == t[2..];
    assert Resolve(t[1..], AlwaysScope) == Success("fo" + ("42" + ""));
    assert "echo " + ("fo" + ("42" + "")) == "echo fo42";
  }

  /** The `always` child's one pattern compiles as written. */
  lemma AlwaysCompile(o: Oracles)
    requires Behaves(o)
    ensures CompilePatterns(AlwaysChild.patterns, AlwaysScope, o) == Success(AlwaysJob.patterns)
  {
    assert Resolve([Lit("(fo[0-9])[0-9]")], AlwaysScope) == Success("(fo[0-9])[0-9]") by {
      assert "(fo[0-9])[0-9]" + "" == "(fo[0-9])[0-9]";
    }
    assert AlwaysChild.patterns[1..] == [];
    assert [AlwaysJob.patterns[0]] + [] == AlwaysJob.patterns;
  }

  /** The `always` child is named `always` and adds `var3 = 42` to what it inherits. */
  lemma AlwaysInstance()
    ensures NewInstance(AlwaysChild, MatchScope) == Success(Instance("always", AlwaysScope))
  {
    assert InitScope(AlwaysChild, MatchScope) == AlwaysScope;
    assert Resolve(AlwaysChild.name, AlwaysScope) == Success("always" + "");
    assert "always" + "" == "always";
  }

  /** The `always` child binds no files and runs `echo fo42`. */
  lemma AlwaysLaunch(o: Oracles)
    requires Behaves(o)
    ensures Launch(AlwaysChild, AlwaysScope, "", o) == Success(Launched(AlwaysScope, AlwaysJob, ["fo42\n"]))
  {
    AlwaysCommand();
    AlwaysCompile(o);
    assert Prepare(AlwaysChild, AlwaysScope, "", o) == Success(AlwaysJob);
  }

  /** `(fo[0-9])[0-9]` captures `fo4` into `var4`. */
  lemma AlwaysCapture()
    ensures Bind([[Lit("var4")]], [Some("fo4")], AlwaysScope) == Success(["var4"])
    ensures Captured(AlwaysScope, ["var4"], [Some("fo4")]) == CaptureScope
  {
    BindOne("var4", "fo4", AlwaysScope);
    CaptureOne("var4", "fo4", AlwaysScope);
  }

  /** `{var4}` is logged as `fo4` once the capture is bound. */
  lemma AlwaysMessage()
    ensures LogEvents(AlwaysJob.patterns[0], CaptureScope) == Success([Log("fo4")])
  {
    assert !Blank([Var("var4")]) by { assert [Var("var4")][0] != Lit(""); }
    assert Resolve([Var("var4")], CaptureScope) == Success("fo4" + "");
    assert "fo4" + "" == "fo4";
  }

  /** `(fo[0-9])[0-9]` matches `fo42`: `var4` becomes `fo4` and `fo4` is logged. */
  lemma AlwaysMatch()
    ensures OnMatchStep(AlwaysJob.patterns[0], [Some("fo4")], [], AlwaysScope) ==
      Partial([Log("fo4")], CaptureScope, None)
  {
    AlwaysCapture();
    AlwaysMessage();
    assert Trigger(OnMatch, [], CaptureScope) == Partial([], CaptureScope, None);
    assert [Log("fo4")] + [] == [Log("fo4")];
  }

  /** The `always` child's single output line, against its single pattern. */
  lemma AlwaysScan(o: Oracles)
    requires Behaves(o)
    ensures ScanLines(["fo42\n"], AlwaysJob.patterns, [], AlwaysScope, o) ==
      Partial([Log("fo4")], CaptureScope, None)
  {
    var p := Compiled("(fo[0-9])[0-9]", [[Lit("var4")]], Some([Var("var4")]));
    assert AlwaysJob.patterns == [p];
    AlwaysMatch();
    assert TryPattern(p, "fo42\n", [], AlwaysScope, o).err.None?;
    SingleScan(p, "fo42\n", [], AlwaysScope, o);
  }

  /** The `always` child's own run: one message, no children. */
  lemma AlwaysRun(o: Oracles)
    requires Behaves(o)
    ensures RunWorker(AlwaysChild, AlwaysScope, "", o) == Ran([Log("fo4")], Completed)
  {
    var scan := Partial([Log("fo4")], CaptureScope, None);
    assert RunWorker(AlwaysChild, AlwaysScope, "", o) == Finish(AlwaysChild, scan) by {
      assert ShouldNotRun(AlwaysChild, AlwaysScope, o) == Success(false);
      AlwaysLaunch(o);
      AlwaysScan(o);
      StreamsTo(AlwaysChild, AlwaysScope, o, Launched(AlwaysScope, AlwaysJob, ["fo42\n"]), scan);
    }
    assert Trigger(Always, [], CaptureScope) == Partial([], CaptureScope, None);
    assert [Log("fo4")] + [] == [Log("fo4")];
  }

  /** The `always` child logs `fo4` and nothing else. */
  lemma AlwaysChildLogs(o: Oracles)
    requires Behaves(o)
    ensures TreeLogs(AlwaysChild, MatchScope, "", o) == ["fo4"]
  {
    AlwaysInstance();
    AlwaysRun(o);
    assert EventLogs(AlwaysChild, [Log("fo4")], "", o) == ["fo4"] + [];
  }

  /** A started child contributes its own messages, in place. */
  lemma SpawnEventLogs(def: NodeDef, g: Group, c: NodeDef, s: Scope, rest: seq<Event>, o: Oracles)
    requires Within([Spawn(g, c, s)] + rest, def.onMatch, def.always)
    ensures Within(rest, def.onMatch, def.always)
    ensures EventLogs(def, [Spawn(g, c, s)] + rest, "", o) == TreeLogs(c, s, "", o) + EventLogs(def, rest, "", o)
  {
    assert ([Spawn(g, c, s)] + rest)[1..] == rest;
  }

  /** A log event contributes its message, in place. */
  lemma LogEventLogs(def: NodeDef, m: string, rest: seq<Event>, o: Oracles)
    requires Within(rest, def.onMatch, def.always)
    ensures Within([Log(m)] + rest, def.onMatch, def.always)
    ensures EventLogs(def, [Log(m)] + rest, "", o) == [m] + EventLogs(def, rest, "", o)
  {
    assert ([Log(m)] + rest)[1..] == rest;
  }

  /** The root's last event: its `always` child, which logs `fo4`. */
  lemma AlwaysSpawnLogs(o: Oracles)
    requires Behaves(o)
    ensures Within([Spawn(Always, AlwaysChild, MatchScope)], Root.onMatch, Root.always)
    ensures EventLogs(Root, [Spawn(Always, AlwaysChild, MatchScope)], "", o) == ["fo4"]
  {
    var last := [Spawn(Always, AlwaysChild, MatchScope)];
    assert last[1..] == [];
    AlwaysChildLogs(o);
    SpawnEventLogs(Root, Always, AlwaysChild, MatchScope, [], o);
    assert last == last + [];
  }

  /** The root's last two events: the `on_match` child logs nothing, the `always` child `fo4`. */
  lemma SpawnsLogs(o: Oracles)
    requires Behaves(o)
    ensures var tail := [Spawn(OnMatch, OnMatchChild, MatchScope), Spawn(Always, AlwaysChild, MatchScope)];
      Within(tail, Root.onMatch, Root.always) && EventLogs(Root, tail, "", o) == ["fo4"]
  {
    var last := [Spawn(Always, AlwaysChild, MatchScope)];
    var tail := [Spawn(OnMatch, OnMatchChild, MatchScope)] + last;
    AlwaysSpawnLogs(o);
    assert tail[1..] == last;
    OnMatchChildLogs(o);
    SpawnEventLogs(Root, OnMatch, OnMatchChild, MatchScope, last, o);
  }

  /** The root's trace, with each child's messages in place of its start. */
  lemma RootEventLogs(o: Oracles)
    requires Behaves(o)
    ensures var events := [Log("fo"), Spawn(OnMatch, OnMatchChild, MatchScope), Spawn(Always, AlwaysChild, MatchScope)];
      Within(events, Root.onMatch, Root.always) && EventLogs(Root, events, "", o) == ["fo", "fo4"]
  {
    var tail := [Spawn(OnMatch, OnMatchChild, MatchScope), Spawn(Always, AlwaysChild, MatchScope)];
    SpawnsLogs(o);
    LogEventLogs(Root, "fo", tail, o);
    assert [Log("fo")] + tail == [Log("fo"), Spawn(OnMatch, OnMatchChild, MatchScope), Spawn(Always, AlwaysChild, MatchScope)];
  }

  /** The run test: the whole tree logs `fo`, then `fo4`. */
  lemma RunFixture(o: Oracles)
    requires Behaves(o)
    ensures RootLogs(Root, "", o) == ["fo", "fo4"]
  {
    RootInstance(o);
    RootRun(o);
    RootEventLogs(o);
  }
}

=== FILE: gate.dfy ===
/** `Module.should_not_run`: the `enabled` flag, then the `condition`. */
module Gate {
  import opened Wrappers
  import opened Templates
  import opened Definitions

  /** Whether the condition is present, resolves and evaluates to false. */
  predicate ConditionFails(def: NodeDef, scope: Scope, o: Oracles) {
    && def.condition.Some?
    && Resolve(def.condition.value, scope).Success?
    && o.evalCond(Resolve(def.condition.value, scope).value) == Some(false)
  }

  /** True means skip. A disabled node is skipped without looking at its
      condition; otherwise the condition is resolved and evaluated, and either
      step may raise. */
  function ShouldNotRun(def: NodeDef, scope: Scope, o: Oracles): (r: Result<bool, Error>)
    ensures r == Success(true) <==> def.enabled == Some(false) || ConditionFails(def, scope, o)
    ensures r == Success(false) <==>
      def.enabled != Some(false) &&
      (def.condition.None? ||
       (Resolve(def.condition.value, scope).Success? &&
        o.evalCond(Resolve(def.condition.value, scope).value) == Some(true)))
    ensures r.Failure? ==>
      def.enabled != Some(false) && def.condition.Some? &&
      (if Closed(def.condition.value, scope)
       then r.error == ConditionError(Resolve(def.condition.value, scope).value)
       else r.error.UnresolvedVariable? && r.error.name !in scope)
  {
    if def.enabled == Some(false) then Success(true)
    else if def.condition.None? then Success(false)
    else
      match Resolve(def.condition.value, scope)
      case Failure(n) => Failure(UnresolvedVariable(n))
      case Success(c) =>
        match o.evalCond(c)
        case None => Failure(ConditionError(c))
        case Some(b) => Success(!b)
  }

  /** A disabled node's decision does not depend on its condition or on what
      evaluating a condition would do. */
  lemma DisabledIgnoresCondition(def: NodeDef, c: Option<Template>, scope: Scope, o: Oracles, o': Oracles)
    requires def.enabled == Some(false)
    ensures ShouldNotRun(def.(condition := c), scope, o') == ShouldNotRun(def, scope, o) == Success(true)
  {
  }
}

=== FILE: instances.dfy ===
/** `Module.__init__`: the scope a node instance starts from and the name it logs under. */
module Instances {
  import opened Wrappers
  import opened Templates
  import opened Definitions

  /** A constructed `Module`: the resolved logger name and the node's scope. */
  datatype Instance = Instance(name: string, scope: Scope)

  /** A copy of the parent's scope with the node's declared `vars` written over it. */
  function InitScope(def: NodeDef, parent: Scope): (r: Scope)
    ensures r.Keys == parent.Keys + def.vars.Keys
    ensures forall k :: k in def.vars ==> r[k] == def.vars[k]
    ensures forall k :: k in parent && k !in def.vars ==> r[k] == parent[k]
  {
    parent + def.vars
  }

  /** `Module(pool, def, parent, handler)`: builds the scope, then resolves the
      name template against it; an unbound name in it raises `KeyError`. */
  function NewInstance(def: NodeDef, parent: Scope): (r: Result<Instance, Error>)
    ensures r.Success? <==> Closed(def.name, InitScope(def, parent))
    ensures r.Success? ==> r.value.scope == InitScope(def, parent)
    ensures r.Failure? ==> r.error.UnresolvedVariable? && r.error.name !in InitScope(def, parent)
  {
    var scope := InitScope(def, parent);
    match Resolve(def.name, scope)
    case Success(n) => Success(Instance(n, scope))
    case Failure(n) => Failure(UnresolvedVariable(n))
  }

  /** A name the node declares is seen with the declared value whatever the
      parent held, and a name it does not declare is inherited unchanged. */
  lemma DeclaredVarsWin(def: NodeDef, parent: Scope, k: string)
    requires NewInstance(def, parent).Success?
    ensures k in def.vars ==> NewInstance(def, parent).value.scope[k] == def.vars[k]
    ensures k !in def.vars ==>
      (k in NewInstance(def, parent).value.scope <==> k in parent) &&
      (k in parent ==> NewInstance(def, parent).value.scope[k] == parent[k])
  {
  }
}

=== FILE: patterns.dfy ===
/** The pattern side of `Module.run_worker`: compiling the `patterns` once per
    run, and binding one match's groups to capture variables. */
module Patterns {
  import opened Wrappers
  import opened Templates
  import opened Definitions

  /** A compiled pattern: the resolved regex source; the capture names and the
      log message stay templates, resolved at each match. */
  datatype Compiled = Compiled(source: string, groups: seq<Template>, log: Option<Template>)

  /** The pattern's source resolves and `re.compile` accepts the result. */
  predicate Compiles(p: PatternDef, scope: Scope, o: Oracles) {
    Resolve(p.source, scope).Success? && o.compiles(Resolve(p.source, scope).value)
  }

  /** What preparing a pattern that does not compile raises: the `KeyError`
      of the source's leftmost unbound field, or `re.error` for the resolved
      source. */
  function CompileError(p: PatternDef, scope: Scope, o: Oracles): Error {
    match Resolve(p.source, scope)
    case Failure(n) => UnresolvedVariable(n)
    case Success(src) => PatternCompileError(src)
  }

  /** Resolves and compiles every pattern, in declared order, stopping at the
      first source that has an unbound field or that `re.compile` rejects. */
  function CompileFrom(pats: seq<PatternDef>, scope: Scope, o: Oracles): (r: Result<seq<Compiled>, Error>)
    ensures r.Success? <==> forall i :: 0 <= i < |pats| ==> Compiles(pats[i], scope, o)
  {
    if pats == [] then Success([])
    else
      match Resolve(pats[0].source, scope)
      case Failure(n) => Failure(UnresolvedVariable(n))
      case Success(src) =>
        if !o.compiles(src) then Failure(PatternCompileError(src))
        else
          match CompileFrom(pats[1..], scope, o)
          case Failure(e) => Failure(e)
          case Success(rest) =>
            assert forall i :: 1 <= i < |pats| ==> pats[i] == pats[1..][i - 1];
            Success([Compiled(src, pats[0].groups, pats[0].log)] + rest)
  }

  /** A failed compilation stops at the first pattern that does not compile
      and reports that pattern's error. */
  lemma {:induction false} CompileFromFailure(pats: seq<PatternDef>, scope: Scope, o: Oracles)
    requires CompileFrom(pats, scope, o).Failure?
    ensures exists i :: (0 <= i < |pats| && !Compiles(pats[i], scope, o) &&
      CompileFrom(pats, scope, o).error == CompileError(pats[i], scope, o) &&
      forall j :: 0 <= j < i ==> Compiles(pats[j], scope, o))
  {
    if Compiles(pats[0], scope, o) {
      var tail := pats[1..];
      CompileFromFailure(tail, scope, o);
      var i :| 0 <= i < |tail| && !Compiles(tail[i], scope, o) &&
        CompileFrom(tail, scope, o).error == CompileError(tail[i], scope, o) &&
        forall j :: 0 <= j < i ==> Compiles(tail[j], scope, o);
      assert CompileFrom(pats, scope, o).error == CompileFrom(tail, scope, o).error;
      assert forall j :: 1 <= j <= i + 1 ==> pats[j] == tail[j - 1];
      assert forall j :: 0 <= j < i + 1 ==> Compiles(pats[j], scope, o);
    } else {
      assert CompileFrom(pats, scope, o).error == CompileError(pats[0], scope, o);
    }
  }

  /** A successful compilation holds one entry per pattern, in declared order. */
  lemma {:induction false} CompiledEntries(pats: seq<PatternDef>, scope: Scope, o: Oracles)
    requires CompileFrom(pats, scope, o).Success?
    ensures |CompileFrom(pats, scope, o).value| == |pats|
    ensures forall i :: 0 <= i < |pats| ==>
      CompileFrom(pats, scope, o).value[i] == Compiled(Resolve(pats[i].source, scope).value, pats[i].groups, pats[i].log)
  {
    if pats != [] {
      var rest := CompileFrom(pats[1..], scope, o).value;
      var r := CompileFrom(pats, scope, o).value;
      CompiledEntries(pats[1..], scope, o);
      assert r == [Compiled(Resolve(pats[0].source, scope).value, pats[0].groups, pats[0].log)] + rest;
      forall i | 1 <= i < |pats|
        ensures r[i] == Compiled(Resolve(pats[i].source, scope).value, pats[i].groups, pats[i].log)
      {
        assert pats[i] == pats[1..][i - 1] && r[i] == rest[i - 1];
      }
    }
  }

  /** The node's `patterns`, compiled once per run. */
  function CompilePatterns(pats: seq<PatternDef>, scope: Scope, o: Oracles): (r: Result<seq<Compiled>, Error>)
    ensures r.Success? <==> forall i :: 0 <= i < |pats| ==> Compiles(pats[i], scope, o)
    ensures r.Success? ==> |r.value| == |pats|
    ensures r.Success? ==> forall i :: 0 <= i < |pats| ==>
      r.value[i] == Compiled(Resolve(pats[i].source, scope).value, pats[i].groups, pats[i].log)
    ensures r.Failure? ==> exists i :: (0 <= i < |pats| && !Compiles(pats[i], scope, o) &&
      r.error == CompileError(pats[i], scope, o) &&
      forall j :: 0 <= j < i ==> Compiles(pats[j], scope, o))
  {
    var r := CompileFrom(pats, scope, o);
    if r.Success? then
      CompiledEntries(pats, scope, o);
      r
    else
      CompileFromFailure(pats, scope, o);
      r
  }

  /** The text `str.format` prints for `match.group(idx)`: a group that did not
      take part in the match is `None`. */
  function GroupText(g: Option<string>): string {
    match g
    case Some(x) => x
    case None => "None"
  }

  function Texts(caps: seq<Option<string>>): (r: seq<string>)
    ensures |r| == |caps|
    ensures forall i :: 0 <= i < |caps| ==> r[i] == GroupText(caps[i])
  {
    seq(|caps|, i requires 0 <= i < |caps| => GroupText(caps[i]))
  }

  /** `scope[names[0]] = values[0]; ...; scope[names[n-1]] = values[n-1]`, in that order. */
  function Assign(scope: Scope, names: seq<string>, values: seq<string>): Scope
    requires |names| == |values|
    decreases |names|
  {
    if names == [] then scope
    else Assign(scope, names[..|names| - 1], values[..|values| - 1])[names[|names| - 1] := values[|values| - 1]]
  }

  /** No later name in `names` repeats `names[i]`: its assignment is the one that stays. */
  predicate LastAssigned(names: seq<string>, i: int)
    requires 0 <= i < |names|
  {
    forall j :: i < j < |names| ==> names[j] != names[i]
  }

  /** The assignments add exactly the assigned names, leave every other
      variable alone, and a name ends with the value of its last assignment. */
  lemma AssignSpec(scope: Scope, names: seq<string>, values: seq<string>)
    requires |names| == |values|
    ensures forall k :: k in Assign(scope, names, values) <==> k in scope || k in names
    ensures forall k :: k in scope && k !in names ==> Assign(scope, names, values)[k] == scope[k]
    ensures forall i :: 0 <= i < |names| && LastAssigned(names, i) ==>
      Assign(scope, names, values)[names[i]] == values[i]
  {
    AssignKeys(scope, names, values);
    AssignLast(scope, names, values);
  }

  lemma {:induction false} AssignKeys(scope: Scope, names: seq<string>, values: seq<string>)
    requires |names| == |values|
    ensures forall k :: k in Assign(scope, names, values) <==> k in scope || k in names
    ensures forall k :: k in scope && k !in names ==> Assign(scope, names, values)[k] == scope[k]
    decreases |names|
  {
    if names != [] {
      var n := |names| - 1;
      AssignKeys(scope, names[..n], values[..n]);
      assert names == names[..n] + [names[n]];
      assert forall k :: k in names <==> k in names[..n] || k == names[n];
    }
  }

  lemma {:induction false} AssignLast(scope: Scope, names: seq<string>, values: seq<string>)
    requires |names| == |values|
    ensures forall k :: k in names ==> k in Assign(scope, names, values)
    ensures forall i :: 0 <= i < |names| && LastAssigned(names, i) ==>
      Assign(scope, names, values)[names[i]] == values[i]
    decreases |names|
  {
    if names != [] {
      var n := |names| - 1;
      var front, vfront := names[..n], values[..n];
      AssignKeys(scope, names, values);
      AssignLast(scope, front, vfront);
      forall i | 0 <= i < |names| && LastAssigned(names, i)
        ensures Assign(scope, names, values)[names[i]] == values[i]
      {
        if i < n {
          assert LastAssigned(front, i);
          assert names[n] != names[i];
          assert front[i] == names[i] && vfront[i] == values[i];
        }
      }
    }
  }

  /** Binds the groups from `|names|` on, where `names` are the capture names
      already resolved. For each group the match's group `idx` is read first
      (raising `IndexError` past the regex's groups), then its name template is
      resolved against the scope holding the earlier captures of this match. */
  function BindFrom(groups: seq<Template>, caps: seq<Option<string>>, scope: Scope, names: seq<string>)
    : (r: Result<seq<string>, Error>)
    requires |names| <= |groups| && |names| <= |caps|
    ensures r.Success? ==> |r.value| == |groups| <= |caps| && r.value[..|names|] == names
    ensures |caps| < |groups| ==> r.Failure?
    ensures r.Failure? ==>
      (r.error.NoSuchGroup? && r.error.index == |caps| + 1) ||
      (r.error.UnresolvedVariable? && |names| < |groups|)
    ensures r.Failure? && r.error.NoSuchGroup? ==> |caps| < |groups|
    ensures r.Failure? && r.error.UnresolvedVariable? ==> r.error.name !in scope
    decreases |groups| - |names|
  {
    var i := |names|;
    if i == |groups| then Success(names)
    else if i == |caps| then Failure(NoSuchGroup(i + 1))
    else
      match Resolve(groups[i], Assign(scope, names, Texts(caps)[..i]))
      case Failure(n) =>
        AssignKeys(scope, names, Texts(caps)[..i]);
        Failure(UnresolvedVariable(n))
      case Success(nm) =>
        var r := BindFrom(groups, caps, scope, names + [nm]);
        assert r.Success? ==> r.value[..i + 1][..i] == r.value[..i];
        r
  }

  /** `ns[from..]` are the names of groups `from` onwards, each its template
      resolved against the scope holding this match's captures before it. */
  predicate ResolvedFrom(groups: seq<Template>, caps: seq<Option<string>>, scope: Scope, ns: seq<string>, from: nat)
    requires |ns| <= |groups| && |ns| <= |caps|
  {
    forall j :: from <= j < |ns| ==> Resolve(groups[j], Assign(scope, ns[..j], Texts(caps)[..j])) == Success(ns[j])
  }

  /** Names resolved in turn after `names + [nm]` are resolved in turn after
      `names` when `nm` is what group `|names|` resolves to. */
  lemma ResolvedFromStep(groups: seq<Template>, caps: seq<Option<string>>, scope: Scope, names: seq<string>, nm: string, ns: seq<string>)
    requires |names| < |ns| <= |groups| && |ns| <= |caps|
    requires Resolve(groups[|names|], Assign(scope, names, Texts(caps)[..|names|])) == Success(nm)
    requires ns[..|names| + 1] == names + [nm] && ResolvedFrom(groups, caps, scope, ns, |names| + 1)
    ensures ns[..|names|] == names && ResolvedFrom(groups, caps, scope, ns, |names|)
  {
    var i := |names|;
    assert ns[..i] == names && ns[i] == nm by {
      assert ns[..i + 1][..i] == ns[..i];
      assert ns[..i + 1][i] == ns[i];
    }
  }

  /** Each name bound from `|names|` on is its group's template resolved
      against the scope holding the captures before it. */
  lemma {:induction false} BindFromResolves(groups: seq<Template>, caps: seq<Option<string>>, scope: Scope, names: seq<string>)
    requires |names| <= |groups| && |names| <= |caps|
    requires BindFrom(groups, caps, scope, names).Success?
    ensures ResolvedFrom(groups, caps, scope, BindFrom(groups, caps, scope, names).value, |names|)
    decreases |groups| - |names|
  {
    var i := |names|;
    if i < |groups| {
      var nm := Resolve(groups[i], Assign(scope, names, Texts(caps)[..i])).value;
      var r := BindFrom(groups, caps, scope, names + [nm]).value;
      assert BindFrom(groups, caps, scope, names).value == r;
      BindFromResolves(groups, caps, scope, names + [nm]);
      ResolvedFromStep(groups, caps, scope, names, nm, r);
    }
  }

  /** `ns` extends `names` by names resolved in turn, and group `|ns|` is the
      first whose name template misses `name` in the scope built so far. */
  predicate UnboundAfter(groups: seq<Template>, caps: seq<Option<string>>, scope: Scope, names: seq<string>, ns: seq<string>, name: string)
  {
    && |names| <= |ns| < |groups| && |ns| < |caps| && ns[..|names|] == names
    && ResolvedFrom(groups, caps, scope, ns, |names|)
    && Resolve(groups[|ns|], Assign(scope, ns, Texts(caps)[..|ns|])) == Failure(name)
  }

  /** An unbound capture name is reported for the first group whose name does
      not resolve against the scope holding the captures before it: the
      inherited variables and every earlier capture of the same match. */
  lemma {:induction false} BindFromFailure(groups: seq<Template>, caps: seq<Option<string>>, scope: Scope, names: seq<string>)
    requires |names| <= |groups| && |names| <= |caps|
    ensures var r := BindFrom(groups, caps, scope, names);
      r.Failure? && r.error.UnresolvedVariable? ==>
        exists ns :: UnboundAfter(groups, caps, scope, names, ns, r.error.name)
    decreases |groups| - |names|
  {
    var i := |names|;
    var r := BindFrom(groups, caps, scope, names);
    if i < |groups| && i < |caps| && r.Failure? && r.error.UnresolvedVariable? {
      var s0 := Assign(scope, names, Texts(caps)[..i]);
      if Resolve(groups[i], s0).Failure? {
        assert names[..i] == names;
        assert UnboundAfter(groups, caps, scope, names, names, r.error.name);
      } else {
        var nm := Resolve(groups[i], s0).value;
        assert r == BindFrom(groups, caps, scope, names + [nm]);
        BindFromFailure(groups, caps, scope, names + [nm]);
        var ns :| UnboundAfter(groups, caps, scope, names + [nm], ns, r.error.name);
        ResolvedFromStep(groups, caps, scope, names, nm, ns);
        assert UnboundAfter(groups, caps, scope, names, ns, r.error.name);
      }
    }
  }

  /** Capture names that need only the inherited scope always bind when the
      regex has enough groups: earlier captures only add variables. */
  lemma {:induction false} BindFromSucceeds(groups: seq<Template>, caps: seq<Option<string>>, scope: Scope, names: seq<string>)
    requires |names| <= |groups| && |names| <= |caps|
    ensures |groups| <= |caps| && (forall i :: |names| <= i < |groups| ==> Closed(groups[i], scope)) ==>
      BindFrom(groups, caps, scope, names).Success?
    decreases |groups| - |names|
  {
    var i := |names|;
    if i < |groups| && |groups| <= |caps| && forall j :: i <= j < |groups| ==> Closed(groups[j], scope) {
      var s1 := Assign(scope, names, Texts(caps)[..i]);
      AssignKeys(scope, names, Texts(caps)[..i]);
      assert Closed(groups[i], s1) by {
        assert Closed(groups[i], scope);
      }
      var nm := Resolve(groups[i], s1).value;
      BindFromSucceeds(groups, caps, scope, names + [nm]);
    }
  }

  /** The capture names of one match, group 1 first. */
  function Bind(groups: seq<Template>, caps: seq<Option<string>>, scope: Scope): (r: Result<seq<string>, Error>)
    ensures r.Success? ==> |r.value| == |groups| <= |caps|
    ensures r.Success? ==> forall i :: 0 <= i < |groups| ==>
      Resolve(groups[i], Assign(scope, r.value[..i], Texts(caps)[..i])) == Success(r.value[i])
    ensures |caps| < |groups| ==> r.Failure?
    ensures |groups| <= |caps| && (forall i :: 0 <= i < |groups| ==> Closed(groups[i], scope)) ==> r.Success?
    ensures r.Failure? ==>
      (r.error.NoSuchGroup? && r.error.index == |caps| + 1 && |caps| < |groups|) ||
      (r.error.UnresolvedVariable? && r.error.name !in scope)
    ensures r.Failure? && r.error.UnresolvedVariable? ==>
      exists ns :: UnboundAfter(groups, caps, scope, [], ns, r.error.name)
  {
    BindFromSucceeds(groups, caps, scope, []);
    BindFromFailure(groups, caps, scope, []);
    var r := BindFrom(groups, caps, scope, []);
    if r.Success? then
      BindFromResolves(groups, caps, scope, []);
      r
    else
      r
  }

  /** The scope after a successful bind: each capture stored under its name, in order. */
  function Captured(scope: Scope, names: seq<string>, caps: seq<Option<string>>): Scope
    requires |names| <= |caps|
  {
    Assign(scope, names, Texts(caps)[..|names|])
  }

  /** Binding a match stores group i under name i (the last one wins on a
      repeat) and touches nothing else; a group that took no part in the
      match is stored as the text `None`. */
  lemma CapturedSpec(scope: Scope, names: seq<string>, caps: seq<Option<string>>)
    requires |names| <= |caps|
    ensures forall k :: k in Captured(scope, names, caps) <==> k in scope || k in names
    ensures forall k :: k in scope && k !in names ==> Captured(scope, names, caps)[k] == scope[k]
    ensures forall i :: 0 <= i < |names| && LastAssigned(names, i) ==>
      Captured(scope, names, caps)[names[i]] == GroupText(caps[i])
    ensures forall i :: 0 <= i < |names| && LastAssigned(names, i) && caps[i].None? ==>
      Captured(scope, names, caps)[names[i]] == "None"
  {
    AssignSpec(scope, names, Texts(caps)[..|names|]);
  }
}

=== FILE: templates.dfy ===
/**
 Templates in the style of Python's `str.format`: a template is already split
 into literal text and `{name}` fields, and resolving it against a scope
 substitutes every field or fails with the first name the scope lacks (the
 `KeyError` that `str.format(**scope)` raises).
 */
module Templates {
  import opened Wrappers

  /** A variable scope, `Module.var`: each value is held in the text form that
      `str.format` prints for it. */
  type Scope = map<string, string>

  /** One piece of a template: literal text or a `{name}` replacement field. */
  datatype Token = Lit(text: string) | Var(name: string)

  type Template = seq<Token>

  /** Every field of `t` names a variable of `s`. */
  predicate Closed(t: Template, s: Scope) {
    forall i :: 0 <= i < |t| && t[i].Var? ==> t[i].name in s
  }

  /** The template's source text is the empty string, which Python treats as false. */
  predicate Blank(t: Template) {
    forall i :: 0 <= i < |t| ==> t[i] == Lit("")
  }

  /** `s1` and `s2` give the same answer for every name `t` refers to. */
  predicate AgreeOn(t: Template, s1: Scope, s2: Scope) {
    forall i :: 0 <= i < |t| && t[i].Var? ==>
      (t[i].name in s1 <==> t[i].name in s2) &&
      (t[i].name in s1 ==> s1[t[i].name] == s2[t[i].name])
  }

  /** `template.format(**s)`: succeeds exactly when every field is bound; on
      failure reports the leftmost unbound field. */
  function Resolve(t: Template, s: Scope): (r: Result<string, string>)
    ensures r.Success? <==> Closed(t, s)
    ensures r.Failure? ==>
      exists i :: 0 <= i < |t| && t[i] == Var(r.error) && r.error !in s && Closed(t[..i], s)
  {
    if t == [] then Success("")
    else
      var head: Result<string, string> :=
        match t[0]
        case Lit(x) => Success(x)
        case Var(n) => if n in s then Success(s[n]) else Failure(n);
      if head.Failure? then
        assert t[..0] == [];
        head
      else
        match Resolve(t[1..], s)
        case Success(rest) => Success(head.value + rest)
        case Failure(n) =>
          ghost var i :| 0 <= i < |t[1..]| && t[1..][i] == Var(n) && n !in s && Closed(t[1..][..i], s);
          assert t[..i + 1] == [t[0]] + t[1..][..i];
          Failure(n)
  }

  /** Resolving a concatenation resolves the halves in order: text composes,
      and the first half's missing name is the one reported. */
  lemma {:induction false} ResolveAppend(a: Template, b: Template, s: Scope)
    ensures Resolve(a + b, s) ==
      match Resolve(a, s)
      case Failure(n) => Failure(n)
      case Success(x) =>
        match Resolve(b, s)
        case Failure(n) => Failure(n)
        case Success(y) => Success(x + y)
    decreases |a|
  {
    if a == [] {
      assert a + b == b;
      match Resolve(b, s)
      case Failure(_) =>
      case Success(y) => assert "" + y == y;
    } else {
      assert (a + b)[0] == a[0];
      assert (a + b)[1..] == a[1..] + b;
      ResolveAppend(a[1..], b, s);
      match Resolve(a[1..], s)
      case Failure(_) =>
      case Success(x) =>
        match Resolve(b, s)
        case Failure(_) =>
        case Success(y) =>
          if a[0].Lit? {
            assert a[0].text + (x + y) == (a[0].text + x) + y;
          } else if a[0].name in s {
            assert s[a[0].name] + (x + y) == (s[a[0].name] + x) + y;
          }
    }
  }

  /** What a single token resolves to: literal text is copied, and a field is
      replaced by the variable's value or fails with its name. With
      `ResolveAppend` this fixes the text of every template. */
  lemma ResolveToken(x: string, n: string, s: Scope)
    ensures Resolve([Lit(x)], s) == Success(x)
    ensures Resolve([Var(n)], s) == if n in s then Success(s[n]) else Failure(n)
  {
    assert [Lit(x)][1..] == [] && [Var(n)][1..] == [];
    assert x + "" == x;
    if n in s {
      assert s[n] + "" == s[n];
    }
  }

  /** A template's meaning depends only on the variables it names. */
  lemma {:induction false} ResolveAgree(t: Template, s1: Scope, s2: Scope)
    requires AgreeOn(t, s1, s2)
    ensures Resolve(t, s1) == Resolve(t, s2)
    decreases |t|
  {
    if t != [] {
      assert AgreeOn(t[1..], s1, s2) by {
        forall i | 0 <= i < |t[1..]| && t[1..][i].Var?
          ensures t[1..][i].name in s1 <==> t[1..][i].name in s2
          ensures t[1..][i].name in s1 ==> s1[t[1..][i].name] == s2[t[1..][i].name]
        {
          assert t[1..][i] == t[i + 1];
        }
      }
      ResolveAgree(t[1..], s1, s2);
    }
  }

  /** A blank template resolves to the empty string under any scope. */
  lemma {:induction false} ResolveBlank(t: Template, s: Scope)
    requires Blank(t)
    ensures Resolve(t, s) == Success("")
    decreases |t|
  {
    if t != [] {
      assert Blank(t[1..]) by {
        forall i | 0 <= i < |t[1..]| ensures t[1..][i] == Lit("") {
          assert t[1..][i] == t[i + 1];
        }
      }
      ResolveBlank(t[1..], s);
      assert t[0] == Lit("");
      assert "" + "" == "";
    }
  }
}

=== FILE: tree.dfy ===
/**
 The whole execution tree run sequentially: each child a node starts runs to
 completion at the point it is started. The source runs every started node in
 its own thread, so this order is one interleaving among many. What every
 interleaving keeps is only this: a node's own messages stay in the order it
 logs them, and a child's messages come after everything its parent logged
 before starting it.
 */
module Tree {
  import opened Wrappers
  import opened Templates
  import opened Definitions
  import opened Instances
  import opened Worker

  /** The info messages of a node constructed from `inherited` and of all the
      descendants it starts, each child's messages placed where it is started.
      A node that cannot be constructed, or that its gate skips, logs nothing. */
  function TreeLogs(def: NodeDef, inherited: Scope, logDir: string, o: Oracles): (r: seq<string>)
    ensures NewInstance(def, inherited).Failure? ==> r == []
    ensures NewInstance(def, inherited).Success? ==>
      RunWorker(def, NewInstance(def, inherited).value.scope, logDir, o).Skipped? ==> r == []
    decreases def, 1
  {
    match NewInstance(def, inherited)
    case Failure(_) => []
    case Success(inst) =>
      match RunWorker(def, inst.scope, logDir, o)
      case Skipped => []
      case Ran(events, _) => EventLogs(def, events, logDir, o)
  }

  /** The messages of `events`, a trace of `def`'s run, with every started
      child's own messages in place of its `Spawn`. */
  function EventLogs(def: NodeDef, events: seq<Event>, logDir: string, o: Oracles): (r: seq<string>)
    requires Within(events, def.onMatch, def.always)
    ensures (forall i :: 0 <= i < |events| ==> events[i].Log?) ==>
      r == seq(|events|, i requires 0 <= i < |events| => events[i].message)
    decreases def, 0, |events|
  {
    if events == [] then []
    else
      var head := match events[0]
        case Log(m) => [m]
        case Spawn(_, c, s) =>
          assert c in def.onMatch || c in def.always;
          TreeLogs(c, s, logDir, o);
      head + EventLogs(def, events[1..], logDir, o)
  }

  /** `Module(cfg=root).run(logDir)`: the root is constructed from an empty
      scope, so its name can only use its own `vars`, and it runs in exactly
      that scope. */
  function RootLogs(def: NodeDef, logDir: string, o: Oracles): (r: seq<string>)
    ensures !Closed(def.name, def.vars) ==> r == []
    ensures Closed(def.name, def.vars) && RunWorker(def, def.vars, logDir, o).Skipped? ==> r == []
    ensures Closed(def.name, def.vars) && RunWorker(def, def.vars, logDir, o).Ran? ==>
      r == EventLogs(def, RunWorker(def, def.vars, logDir, o).events, logDir, o)
  {
    assert InitScope(def, map[]) == def.vars;
    TreeLogs(def, map[], logDir, o)
  }

  /** The messages a trace logs itself, in order, leaving out its children's. */
  function Messages(events: seq<Event>): seq<string> {
    if events == [] then []
    else (if events[0].Log? then [events[0].message] else []) + Messages(events[1..])
  }

  /** Every child started in `events` logs nothing. */
  predicate Silent(events: seq<Event>, logDir: string, o: Oracles) {
    forall i :: 0 <= i < |events| && events[i].Spawn? ==>
      TreeLogs(events[i].child, events[i].inherited, logDir, o) == []
  }

  /** The messages of a trace split with the trace: a child's messages come
      after all that was logged before it was started. */
  lemma {:induction false} EventLogsAppend(def: NodeDef, a: seq<Event>, b: seq<Event>, logDir: string, o: Oracles)
    requires Within(a, def.onMatch, def.always) && Within(b, def.onMatch, def.always)
    ensures Within(a + b, def.onMatch, def.always)
    ensures EventLogs(def, a + b, logDir, o) == EventLogs(def, a, logDir, o) + EventLogs(def, b, logDir, o)
    decreases |a|
  {
    WithinAppend(a, b, def.onMatch, def.always);
    if a == [] {
      assert a + b == b;
    } else {
      var ab := a + b;
      assert ab[0] == a[0] && ab[1..] == a[1..] + b;
      EventLogsAppend(def, a[1..], b, logDir, o);
      var h := match a[0] case Log(m) => [m] case Spawn(_, c, s) => TreeLogs(c, s, logDir, o);
      var x, y := EventLogs(def, a[1..], logDir, o), EventLogs(def, b, logDir, o);
      assert EventLogs(def, a, logDir, o) == h + x;
      assert EventLogs(def, ab, logDir, o) == h + (x + y);
      ConcatAssoc(h, x, y);
    }
  }

  lemma ConcatAssoc(a: seq<string>, b: seq<string>, c: seq<string>)
    ensures a + (b + c) == (a + b) + c
  {
  }

  /** When no child started in the trace logs anything, the trace's messages
      are its own `Log` events, in order. */
  lemma {:induction false} EventLogsOwn(def: NodeDef, events: seq<Event>, logDir: string, o: Oracles)
    requires Within(events, def.onMatch, def.always)
    ensures Silent(events, logDir, o) ==> EventLogs(def, events, logDir, o) == Messages(events)
    decreases |events|
  {
    if events != [] && Silent(events, logDir, o) {
      assert Silent(events[1..], logDir, o) by {
        forall i | 0 <= i < |events[1..]| && events[1..][i].Spawn?
          ensures TreeLogs(events[1..][i].child, events[1..][i].inherited, logDir, o) == []
        {
          assert events[1..][i] == events[i + 1];
        }
      }
      EventLogsOwn(def, events[1..], logDir, o);
      if events[0].Spawn? {
        assert TreeLogs(events[0].child, events[0].inherited, logDir, o) == [];
      }
    }
  }

  /** A trace that may start no child (both groups empty) starts none. */
  lemma {:induction false} WithinNothing(events: seq<Event>)
    requires Within(events, [], [])
    ensures forall i :: 0 <= i < |events| ==> events[i].Log?
    decreases |events|
  {
    if events != [] {
      WithinNothing(events[1..]);
      assert forall i :: 1 <= i < |events| ==> events[i] == events[1..][i - 1];
    }
  }

  /** A node that runs and whose started children log nothing logs exactly its
      own messages, in order; a node without submodules always does. */
  lemma TreeLogsOwn(def: NodeDef, inherited: Scope, logDir: string, o: Oracles)
    ensures NewInstance(def, inherited).Success? ==>
      var run := RunWorker(def, NewInstance(def, inherited).value.scope, logDir, o);
      run.Ran? && Silent(run.events, logDir, o) ==> TreeLogs(def, inherited, logDir, o) == Messages(run.events)
    ensures NewInstance(def, inherited).Success? && def.onMatch == [] && def.always == [] ==>
      var run := RunWorker(def, NewInstance(def, inherited).value.scope, logDir, o);
      run.Ran? ==> TreeLogs(def, inherited, logDir, o) == Messages(run.events)
  {
    if NewInstance(def, inherited).Success? {
      var run := RunWorker(def, NewInstance(def, inherited).value.scope, logDir, o);
      if run.Ran? {
        if def.onMatch == [] && def.always == [] {
          WithinNothing(run.events);
        }
        EventLogsOwn(def, run.events, logDir, o);
      }
    }
  }
}

=== FILE: worker.dfy ===
/**
 `Module.run_worker` and `Module.run_submodules`, run sequentially: one node's
 run becomes the trace of log messages it emits and child instances it starts,
 in the order the worker thread performs them. A started child appears as a
 `Spawn` event carrying the copy of the scope it was constructed with.
 */
module Worker {
  import opened Wrappers
  import opened Templates
  import opened Definitions
  import opened Instances
  import opened Gate
  import opened Files
  import opened Patterns

  /** The two submodule groups. */
  datatype Group = OnMatch | Always

  /** An info-level log message, or a child instance constructed and started. */
  datatype Event = Log(message: string) | Spawn(group: Group, child: NodeDef, inherited: Scope)

  /** A stage of the worker loop: what it emitted, the scope it left, and the
      exception that ended it, if any. */
  datatype Partial = Partial(events: seq<Event>, scope: Scope, err: Option<Error>)

  /** How a run that got past the gate ended. */
  datatype End = Completed | Failed(error: Error)

  /** A node's run: skipped by its gate, or the trace it produced and how it ended. */
  datatype Run = Skipped | Ran(events: seq<Event>, end: End)

  /** The children started in group `g`, in order. */
  function SpawnedChildren(events: seq<Event>, g: Group): seq<NodeDef> {
    if events == [] then []
    else
      (if events[0].Spawn? && events[0].group == g then [events[0].child] else [])
      + SpawnedChildren(events[1..], g)
  }

  lemma {:induction false} SpawnedChildrenAppend(a: seq<Event>, b: seq<Event>, g: Group)
    ensures SpawnedChildren(a + b, g) == SpawnedChildren(a, g) + SpawnedChildren(b, g)
    decreases |a|
  {
    if a == [] {
      assert a + b == b;
    } else {
      var head := if a[0].Spawn? && a[0].group == g then [a[0].child] else [];
      assert SpawnedChildren(a + b, g) == head + SpawnedChildren(a[1..] + b, g) by {
        assert (a + b)[0] == a[0] && (a + b)[1..] == a[1..] + b;
      }
      SpawnedChildrenAppend(a[1..], b, g);
      assert head + (SpawnedChildren(a[1..], g) + SpawnedChildren(b, g))
        == (head + SpawnedChildren(a[1..], g)) + SpawnedChildren(b, g);
    }
  }

  /** `xs` repeated `n` times. */
  function Repeat<T>(xs: seq<T>, n: nat): seq<T> {
    if n == 0 then [] else xs + Repeat(xs, n - 1)
  }

  lemma {:induction false} RepeatAdd<T>(xs: seq<T>, m: nat, n: nat)
    ensures Repeat(xs, m + n) == Repeat(xs, m) + Repeat(xs, n)
    decreases m
  {
    if m > 0 {
      RepeatAdd(xs, m - 1, n);
      assert Repeat(xs, m + n) == xs + Repeat(xs, m - 1 + n);
    }
  }

  /** Every child started in `events` belongs to the group it was started in:
      `onMatch` for `OnMatch`, `always` for `Always`. */
  predicate Within(events: seq<Event>, onMatch: seq<NodeDef>, always: seq<NodeDef>) {
    events == [] ||
    ((events[0].Spawn? ==> events[0].child in (if events[0].group == OnMatch then onMatch else always))
     && Within(events[1..], onMatch, always))
  }

  lemma {:induction false} WithinAppend(a: seq<Event>, b: seq<Event>, onMatch: seq<NodeDef>, always: seq<NodeDef>)
    requires Within(a, onMatch, always) && Within(b, onMatch, always)
    ensures Within(a + b, onMatch, always)
    decreases |a|
  {
    if a == [] {
      assert a + b == b;
    } else {
      assert (a + b)[0] == a[0];
      assert (a + b)[1..] == a[1..] + b;
      WithinAppend(a[1..], b, onMatch, always);
    }
  }

  lemma {:induction false} WithinWeaken(events: seq<Event>, onMatch: seq<NodeDef>, always: seq<NodeDef>,
                                        onMatch': seq<NodeDef>, always': seq<NodeDef>)
    requires Within(events, onMatch, always)
    requires forall c :: c in onMatch ==> c in onMatch'
    requires forall c :: c in always ==> c in always'
    ensures Within(events, onMatch', always')
    decreases |events|
  {
    if events != [] {
      WithinWeaken(events[1..], onMatch, always, onMatch', always');
    }
  }

  /** `children` when `g` is `want`, otherwise nothing. */
  function Pick(g: Group, want: Group, children: seq<NodeDef>): seq<NodeDef> {
    if g == want then children else []
  }

  /** Every child in `children` started in group `g`, each with the same copy of `scope`. */
  function SpawnAll(g: Group, children: seq<NodeDef>, scope: Scope): (r: seq<Event>)
    ensures |r| == |children|
    ensures forall i :: 0 <= i < |children| ==> r[i] == Spawn(g, children[i], scope)
  {
    if children == [] then [] else [Spawn(g, children[0], scope)] + SpawnAll(g, children[1..], scope)
  }

  /** Starting a list of children starts exactly those, in order, in their group only. */
  lemma {:induction false} SpawnAllSpawned(g: Group, children: seq<NodeDef>, scope: Scope)
    ensures SpawnedChildren(SpawnAll(g, children, scope), g) == children
    ensures forall g' :: g' != g ==> SpawnedChildren(SpawnAll(g, children, scope), g') == []
    ensures Within(SpawnAll(g, children, scope), Pick(g, OnMatch, children), Pick(g, Always, children))
    decreases |children|
  {
    if children != [] {
      var events := SpawnAll(g, children, scope);
      assert events[1..] == SpawnAll(g, children[1..], scope);
      SpawnAllSpawned(g, children[1..], scope);
      WithinWeaken(events[1..], Pick(g, OnMatch, children[1..]), Pick(g, Always, children[1..]),
                   Pick(g, OnMatch, children), Pick(g, Always, children));
    }
  }

  /** `run_submodules(g)`: constructs and starts each child in turn, every one
      with a copy of `scope`. Constructing a child resolves its name in this
      thread, so a child whose name cannot be resolved raises here and the
      later children of the group are not started. */
  function Trigger(g: Group, children: seq<NodeDef>, scope: Scope): (r: Partial)
    ensures r.scope == scope
    ensures |r.events| <= |children|
    ensures r.events == SpawnAll(g, children[..|r.events|], scope)
    ensures r.err.None? <==> forall i :: 0 <= i < |children| ==> NewInstance(children[i], scope).Success?
    ensures r.err.None? ==> |r.events| == |children|
    ensures r.err.Some? ==>
      |r.events| < |children| && NewInstance(children[|r.events|], scope) == Failure(r.err.value)
  {
    var n := Constructible(children, scope);
    Partial(SpawnAll(g, children[..n], scope), scope,
            if n == |children| then None else Some(NewInstance(children[n], scope).error))
  }

  /** How many children, from the first, can be constructed from `scope`
      before one raises. */
  function Constructible(children: seq<NodeDef>, scope: Scope): (n: nat)
    ensures n <= |children|
    ensures forall i :: 0 <= i < n ==> NewInstance(children[i], scope).Success?
    ensures n < |children| ==> NewInstance(children[n], scope).Failure?
  {
    if children == [] || NewInstance(children[0], scope).Failure? then 0
    else
      var n := Constructible(children[1..], scope);
      assert forall i :: 1 <= i <= n ==> children[i] == children[1..][i - 1];
      1 + n
  }

  /** Whether a pattern logs on a match: `if pattern_dict["log"]` tests the raw
      template, so an absent, `None` or empty-string message logs nothing. */
  predicate LogsOn(p: Compiled) {
    p.log.Some? && !Blank(p.log.value)
  }

  /** A trace of log messages starts no child. */
  lemma {:induction false} LogsSpawnNothing(logs: seq<Event>)
    requires forall i :: 0 <= i < |logs| ==> logs[i].Log?
    ensures forall g :: SpawnedChildren(logs, g) == []
    ensures forall onMatch, always :: Within(logs, onMatch, always)
    decreases |logs|
  {
    if logs != [] {
      LogsSpawnNothing(logs[1..]);
    }
  }

  /** The info message of one match, resolved against the scope holding its captures. */
  function LogEvents(p: Compiled, scope: Scope): (r: Result<seq<Event>, Error>)
    ensures r.Success? <==> !LogsOn(p) || Closed(p.log.value, scope)
    ensures r.Success? ==> (LogsOn(p) <==> |r.value| == 1) && |r.value| <= 1 && forall i :: 0 <= i < |r.value| ==> r.value[i].Log?
    ensures r.Success? && LogsOn(p) ==> r.value[0] == Log(Resolve(p.log.value, scope).value)
    ensures r.Failure? ==> r.error.UnresolvedVariable? && r.error.name !in scope
  {
    if !LogsOn(p) then Success([])
    else
      match Resolve(p.log.value, scope)
      case Success(m) => Success([Log(m)])
      case Failure(n) => Failure(UnresolvedVariable(n))
  }

  /** Whether handling one match with groups `caps` raises nothing: every
      capture name binds, the message (if logged) resolves against the scope
      holding the captures, and every `on_match` child can be constructed from it. */
  predicate MatchRaisesNothing(p: Compiled, caps: seq<Option<string>>, onMatch: seq<NodeDef>, scope: Scope) {
    && Bind(p.groups, caps, scope).Success?
    && var s1 := Captured(scope, Bind(p.groups, caps, scope).value, caps);
       && (LogsOn(p) ==> Closed(p.log.value, s1))
       && forall i :: 0 <= i < |onMatch| ==> NewInstance(onMatch[i], s1).Success?
  }

  /** The work of one match with groups `caps`: bind the captures, log, and
      trigger the `on_match` group with the scope as it is now. */
  function OnMatchStep(p: Compiled, caps: seq<Option<string>>, onMatch: seq<NodeDef>, scope: Scope): (r: Partial)
    ensures Within(r.events, onMatch, [])
    ensures SpawnedChildren(r.events, Always) == []
    ensures r.err.None? ==> SpawnedChildren(r.events, OnMatch) == onMatch
  {
    match Bind(p.groups, caps, scope)
    case Failure(e) => Partial([], scope, Some(e))
    case Success(names) =>
      var s1 := Captured(scope, names, caps);
      match LogEvents(p, s1)
      case Failure(e) => Partial([], s1, Some(e))
      case Success(logs) =>
        var t := Trigger(OnMatch, onMatch, s1);
        SpawnAllSpawned(OnMatch, onMatch[..|t.events|], s1);
        WithinWeaken(t.events, onMatch[..|t.events|], [], onMatch, []);
        LogsSpawnNothing(logs);
        SpawnedChildrenAppend(logs, t.events, OnMatch);
        SpawnedChildrenAppend(logs, t.events, Always);
        WithinAppend(logs, t.events, onMatch, []);
        Partial(logs + t.events, s1, t.err)
  }

  /** A match raises exactly when binding a capture name, resolving the
      message or constructing an `on_match` child raises. */
  lemma MatchRaises(p: Compiled, caps: seq<Option<string>>, onMatch: seq<NodeDef>, scope: Scope)
    ensures OnMatchStep(p, caps, onMatch, scope).err.None? <==> MatchRaisesNothing(p, caps, onMatch, scope)
  {
    if Bind(p.groups, caps, scope).Success? {
      var s1 := Captured(scope, Bind(p.groups, caps, scope).value, caps);
      assert LogEvents(p, s1).Success? <==> (LogsOn(p) ==> Closed(p.log.value, s1));
    }
  }

  /** A match that raises nothing binds its captures first; the log message is
      then resolved against the scope holding them, and every `on_match` child
      is started, once and in order, with a copy of that same scope. */
  lemma MatchSnapshot(p: Compiled, caps: seq<Option<string>>, onMatch: seq<NodeDef>, scope: Scope)
    requires OnMatchStep(p, caps, onMatch, scope).err.None?
    ensures Bind(p.groups, caps, scope).Success?
    ensures OnMatchStep(p, caps, onMatch, scope).scope == Captured(scope, Bind(p.groups, caps, scope).value, caps)
    ensures
      var r := OnMatchStep(p, caps, onMatch, scope);
      r.events ==
        (if LogsOn(p) then [Log(Resolve(p.log.value, r.scope).value)] else [])
        + SpawnAll(OnMatch, onMatch, r.scope)
  {
    var names := Bind(p.groups, caps, scope).value;
    var s1 := Captured(scope, names, caps);
    var logs := LogEvents(p, s1).value;
    var t := Trigger(OnMatch, onMatch, s1);
    assert onMatch[..|t.events|] == onMatch;
  }

  /** The trace of one match whether or not it raises. A capture name that
      does not bind, or a message that does not resolve, raises before
      anything is emitted. Otherwise the message is out before any child is
      constructed, then the `on_match` children are started in order until
      the first one that cannot be constructed, whose error ends the step. */
  lemma MatchTrace(p: Compiled, caps: seq<Option<string>>, onMatch: seq<NodeDef>, scope: Scope)
    ensures Bind(p.groups, caps, scope).Failure? ==>
      OnMatchStep(p, caps, onMatch, scope) == Partial([], scope, Some(Bind(p.groups, caps, scope).error))
    ensures Bind(p.groups, caps, scope).Success? ==>
      OnMatchStep(p, caps, onMatch, scope).scope == Captured(scope, Bind(p.groups, caps, scope).value, caps)
    ensures Bind(p.groups, caps, scope).Success? ==>
      var s1 := Captured(scope, Bind(p.groups, caps, scope).value, caps);
      var r := OnMatchStep(p, caps, onMatch, scope);
      LogsOn(p) && !Closed(p.log.value, s1) ==>
        r.events == [] && r.err == Some(UnresolvedVariable(Resolve(p.log.value, s1).error))
    ensures Bind(p.groups, caps, scope).Success? ==>
      var s1 := Captured(scope, Bind(p.groups, caps, scope).value, caps);
      var r := OnMatchStep(p, caps, onMatch, scope);
      var n := Constructible(onMatch, s1);
      (LogsOn(p) ==> Closed(p.log.value, s1)) ==>
        && r.events == (if LogsOn(p) then [Log(Resolve(p.log.value, s1).value)] else [])
                       + SpawnAll(OnMatch, onMatch[..n], s1)
        && r.err == (if n == |onMatch| then None else Some(NewInstance(onMatch[n], s1).error))
  {
  }

  /** One pattern against one line; a line it does not match changes nothing. */
  function TryPattern(p: Compiled, line: string, onMatch: seq<NodeDef>, scope: Scope, o: Oracles): (r: Partial)
    ensures r.err.None? <==>
      (o.matcher(p.source, line).Some? ==> MatchRaisesNothing(p, o.matcher(p.source, line).value, onMatch, scope))
  {
    match o.matcher(p.source, line)
    case None => Partial([], scope, None)
    case Some(caps) =>
      MatchRaises(p, caps, onMatch, scope);
      OnMatchStep(p, caps, onMatch, scope)
  }

  /** Every compiled pattern against one line, in declared order. */
  function ScanPatterns(pats: seq<Compiled>, line: string, onMatch: seq<NodeDef>, scope: Scope, o: Oracles)
    : (r: Partial)
    ensures Within(r.events, onMatch, [])
    ensures SpawnedChildren(r.events, Always) == []
    decreases |pats|
  {
    if pats == [] then Partial([], scope, None)
    else
      var first := TryPattern(pats[0], line, onMatch, scope, o);
      if first.err.Some? then first
      else
        var rest := ScanPatterns(pats[1..], line, onMatch, first.scope, o);
        SpawnedChildrenAppend(first.events, rest.events, Always);
        WithinAppend(first.events, rest.events, onMatch, []);
        Partial(first.events + rest.events, rest.scope, rest.err)
  }

  /** The loop over the command's output lines, in the order they are produced. */
  function ScanLines(lines: seq<string>, pats: seq<Compiled>, onMatch: seq<NodeDef>, scope: Scope, o: Oracles)
    : (r: Partial)
    ensures Within(r.events, onMatch, [])
    ensures SpawnedChildren(r.events, Always) == []
    decreases |lines|
  {
    if lines == [] then Partial([], scope, None)
    else
      var first := ScanPatterns(pats, lines[0], onMatch, scope, o);
      if first.err.Some? then first
      else
        var rest := ScanLines(lines[1..], pats, onMatch, first.scope, o);
        SpawnedChildrenAppend(first.events, rest.events, Always);
        WithinAppend(first.events, rest.events, onMatch, []);
        Partial(first.events + rest.events, rest.scope, rest.err)
  }

  /** 1 when `p` matches `line`, else 0. */
  function Hit(p: Compiled, line: string, o: Oracles): nat {
    if o.matcher(p.source, line).Some? then 1 else 0
  }

  /** How many of the compiled patterns match `line`. It reads only the
      compiled sources, never the scope: captures cannot change what matches. */
  function LineMatches(line: string, pats: seq<Compiled>, o: Oracles): nat
    decreases |pats|
  {
    if pats == [] then 0 else Hit(pats[0], line, o) + LineMatches(line, pats[1..], o)
  }

  /** The number of matching (line, pattern) pairs. */
  function MatchCount(lines: seq<string>, pats: seq<Compiled>, o: Oracles): nat
    decreases |lines|
  {
    if lines == [] then 0 else LineMatches(lines[0], pats, o) + MatchCount(lines[1..], pats, o)
  }

  /** One pattern that raises nothing triggers the `on_match` group once if it matches, else not at all. */
  lemma TryPatternCascade(p: Compiled, line: string, onMatch: seq<NodeDef>, scope: Scope, o: Oracles)
    requires TryPattern(p, line, onMatch, scope, o).err.None?
    ensures SpawnedChildren(TryPattern(p, line, onMatch, scope, o).events, OnMatch)
      == Repeat(onMatch, Hit(p, line, o))
    ensures Hit(p, line, o) == 0 ==> TryPattern(p, line, onMatch, scope, o) == Partial([], scope, None)
  {
    if o.matcher(p.source, line).Some? {
      assert Repeat(onMatch, 1) == onMatch + [];
    }
  }

  /** A line that raises nothing triggers the whole `on_match` group once per matching pattern. */
  lemma {:induction false} ScanPatternsCascade(pats: seq<Compiled>, line: string, onMatch: seq<NodeDef>, scope: Scope, o: Oracles)
    ensures ScanPatterns(pats, line, onMatch, scope, o).err.None? ==>
      SpawnedChildren(ScanPatterns(pats, line, onMatch, scope, o).events, OnMatch)
      == Repeat(onMatch, LineMatches(line, pats, o))
    decreases |pats|
  {
    if pats != [] && ScanPatterns(pats, line, onMatch, scope, o).err.None? {
      var first := TryPattern(pats[0], line, onMatch, scope, o);
      var rest := ScanPatterns(pats[1..], line, onMatch, first.scope, o);
      var h, k := Hit(pats[0], line, o), LineMatches(line, pats[1..], o);
      assert first.err.None? && ScanPatterns(pats, line, onMatch, scope, o).events == first.events + rest.events;
      calc {
        SpawnedChildren(first.events + rest.events, OnMatch);
        { SpawnedChildrenAppend(first.events, rest.events, OnMatch); }
        SpawnedChildren(first.events, OnMatch) + SpawnedChildren(rest.events, OnMatch);
        { TryPatternCascade(pats[0], line, onMatch, scope, o);
          ScanPatternsCascade(pats[1..], line, onMatch, first.scope, o); }
        Repeat(onMatch, h) + Repeat(onMatch, k);
        { RepeatAdd(onMatch, h, k); }
        Repeat(onMatch, h + k);
      }
      assert LineMatches(line, pats, o) == h + k;
    }
  }

  /** A stream that raises nothing triggers the whole `on_match` group exactly
      once per matching (line, pattern) pair. */
  lemma {:induction false} ScanLinesCascade(lines: seq<string>, pats: seq<Compiled>, onMatch: seq<NodeDef>, scope: Scope, o: Oracles)
    requires ScanLines(lines, pats, onMatch, scope, o).err.None?
    ensures SpawnedChildren(ScanLines(lines, pats, onMatch, scope, o).events, OnMatch)
      == Repeat(onMatch, MatchCount(lines, pats, o))
    decreases |lines|
  {
    if lines != [] {
      var first := ScanPatterns(pats, lines[0], onMatch, scope, o);
      var rest := ScanLines(lines[1..], pats, onMatch, first.scope, o);
      var h, k := LineMatches(lines[0], pats, o), MatchCount(lines[1..], pats, o);
      assert first.err.None? && ScanLines(lines, pats, onMatch, scope, o).events == first.events + rest.events;
      calc {
        SpawnedChildren(first.events + rest.events, OnMatch);
        { SpawnedChildrenAppend(first.events, rest.events, OnMatch); }
        SpawnedChildren(first.events, OnMatch) + SpawnedChildren(rest.events, OnMatch);
        { ScanPatternsCascade(pats, lines[0], onMatch, scope, o);
          ScanLinesCascade(lines[1..], pats, onMatch, first.scope, o); }
        Repeat(onMatch, h) + Repeat(onMatch, k);
        { RepeatAdd(onMatch, h, k); }
        Repeat(onMatch, h + k);
      }
    }
  }

  /** A line no pattern matches leaves the scope as it was and emits nothing. */
  lemma {:induction false} ScanPatternsNoMatch(pats: seq<Compiled>, line: string, onMatch: seq<NodeDef>, scope: Scope, o: Oracles)
    ensures LineMatches(line, pats, o) == 0 ==> ScanPatterns(pats, line, onMatch, scope, o) == Partial([], scope, None)
    decreases |pats|
  {
    if pats != [] && LineMatches(line, pats, o) == 0 {
      TryPatternCascade(pats[0], line, onMatch, scope, o);
      ScanPatternsNoMatch(pats[1..], line, onMatch, scope, o);
      assert TryPattern(pats[0], line, onMatch, scope, o) == Partial([], scope, None);
    }
  }

  /** Output in which no pattern matches anything changes nothing. */
  lemma {:induction false} ScanLinesNoMatch(lines: seq<string>, pats: seq<Compiled>, onMatch: seq<NodeDef>, scope: Scope, o: Oracles)
    ensures MatchCount(lines, pats, o) == 0 ==> ScanLines(lines, pats, onMatch, scope, o) == Partial([], scope, None)
    decreases |lines|
  {
    if lines != [] && MatchCount(lines, pats, o) == 0 {
      ScanPatternsNoMatch(pats, lines[0], onMatch, scope, o);
      ScanLinesNoMatch(lines[1..], pats, onMatch, scope, o);
    }
  }

  /** What the worker holds just before it reads the command's output. */
  datatype Job = Job(cmd: string, patterns: seq<Compiled>, logFile: Option<string>)

  /** `os.path.sep` on POSIX. */
  const PathSep: string := "/"

  /** Resolves the command, compiles the patterns and resolves the log-file
      path, in that order, each against the same scope; the log file is only
      considered when a log directory was given. */
  function Prepare(def: NodeDef, scope: Scope, logDir: string, o: Oracles): (r: Result<Job, Error>)
    ensures r.Success? <==>
      && Closed(def.cmd, scope)
      && CompilePatterns(def.patterns, scope, o).Success?
      && (logDir != "" && def.logfile.Some? ==> Closed(def.logfile.value, scope))
    ensures r.Success? ==> Resolve(def.cmd, scope) == Success(r.value.cmd)
    ensures r.Success? ==> CompilePatterns(def.patterns, scope, o) == Success(r.value.patterns)
    ensures r.Success? ==> (r.value.logFile.Some? <==> logDir != "" && def.logfile.Some?)
    ensures r.Success? && r.value.logFile.Some? ==>
      r.value.logFile.value == logDir + PathSep + Resolve(def.logfile.value, scope).value
    ensures !Closed(def.cmd, scope) ==> r == Failure(UnresolvedVariable(Resolve(def.cmd, scope).error))
    ensures Closed(def.cmd, scope) && CompilePatterns(def.patterns, scope, o).Failure? ==>
      r == Failure(CompilePatterns(def.patterns, scope, o).error)
    ensures Closed(def.cmd, scope) && CompilePatterns(def.patterns, scope, o).Success? &&
            logDir != "" && def.logfile.Some? && !Closed(def.logfile.value, scope) ==>
      r == Failure(UnresolvedVariable(Resolve(def.logfile.value, scope).error))
  {
    match Resolve(def.cmd, scope)
    case Failure(n) => Failure(UnresolvedVariable(n))
    case Success(cmd) =>
      match CompilePatterns(def.patterns, scope, o)
      case Failure(e) => Failure(e)
      case Success(pats) =>
        if logDir == "" || def.logfile.None? then Success(Job(cmd, pats, None))
        else
          match Resolve(def.logfile.value, scope)
          case Failure(n) => Failure(UnresolvedVariable(n))
          case Success(f) => Success(Job(cmd, pats, Some(logDir + PathSep + f)))
  }

  /** A node past its gate, with its files bound, its command prepared and its output read. */
  datatype Launched = Launched(scope: Scope, job: Job, lines: seq<string>)

  /** Everything between the gate and the first output line: `unpack_files`,
      then `Prepare` against the scope holding the file paths, then `Popen`. */
  function Launch(def: NodeDef, scope: Scope, logDir: string, o: Oracles): (r: Result<Launched, Error>)
    ensures r.Success? ==> UnpackFiles(def.files, scope, o) == Success(r.value.scope)
    ensures r.Success? ==> Prepare(def, r.value.scope, logDir, o) == Success(r.value.job)
    ensures r.Success? ==> o.output(r.value.job.cmd) == Some(r.value.lines)
    ensures r.Success? ==> forall j :: 0 <= j < |def.files| ==> def.files[j].name in r.value.scope
    ensures r.Success? ==> Resolve(def.cmd, r.value.scope) == Success(r.value.job.cmd)
    ensures UnpackFiles(def.files, scope, o).Failure? ==> r.Failure? && r.error.ProvisioningError?
    ensures r.Success? <==>
      && UnpackFiles(def.files, scope, o).Success?
      && Prepare(def, UnpackFiles(def.files, scope, o).value, logDir, o).Success?
      && o.output(Prepare(def, UnpackFiles(def.files, scope, o).value, logDir, o).value.cmd).Some?
    ensures UnpackFiles(def.files, scope, o).Success? ==>
      var job := Prepare(def, UnpackFiles(def.files, scope, o).value, logDir, o);
      && (job.Failure? ==> r == Failure(job.error))
      && (job.Success? && o.output(job.value.cmd).None? ==> r == Failure(SpawnError(job.value.cmd)))
  {
    match UnpackFiles(def.files, scope, o)
    case Failure(e) => Failure(e)
    case Success(s1) =>
      match Prepare(def, s1, logDir, o)
      case Failure(e) => Failure(e)
      case Success(job) =>
        match o.output(job.cmd)
        case None => Failure(SpawnError(job.cmd))
        case Some(lines) => Success(Launched(s1, job, lines))
  }

  /** After the output is exhausted: the `always` group, started once with the
      final scope; the run completes unless constructing a child raises. */
  function Finish(def: NodeDef, scan: Partial): (r: Run)
    requires Within(scan.events, def.onMatch, []) && SpawnedChildren(scan.events, Always) == []
    ensures r.Ran? && Within(r.events, def.onMatch, def.always)
    ensures r.end.Completed? ==> SpawnedChildren(r.events, Always) == def.always
    ensures r.end.Failed? ==> SpawnedChildren(r.events, Always) < def.always
    ensures r.end.Completed? <==>
      forall i :: 0 <= i < |def.always| ==> NewInstance(def.always[i], scan.scope).Success?
    ensures r.end.Completed? ==> r.events == scan.events + SpawnAll(Always, def.always, scan.scope)
  {
    var fin := Trigger(Always, def.always, scan.scope);
    var started := def.always[..|fin.events|];
    assert SpawnedChildren(scan.events + fin.events, Always) == started by {
      SpawnAllSpawned(Always, started, scan.scope);
      SpawnedChildrenAppend(scan.events, fin.events, Always);
    }
    assert Within(scan.events + fin.events, def.onMatch, def.always) by {
      SpawnAllSpawned(Always, started, scan.scope);
      WithinWeaken(scan.events, def.onMatch, [], def.onMatch, def.always);
      WithinWeaken(fin.events, [], started, def.onMatch, def.always);
      WithinAppend(scan.events, fin.events, def.onMatch, def.always);
    }
    Ran(scan.events + fin.events, if fin.err.None? then Completed else Failed(fin.err.value))
  }

  /** `run_worker`: the gate, the launch, the stream, then the `always` group.
      An exception anywhere ends the thread, so a run that fails before or
      during the stream never triggers `always`. */
  function RunWorker(def: NodeDef, scope: Scope, logDir: string, o: Oracles): (r: Run)
    ensures r.Skipped? <==> ShouldNotRun(def, scope, o) == Success(true)
    ensures r.Ran? ==> Within(r.events, def.onMatch, def.always)
    ensures r.Ran? && r.end.Completed? ==> SpawnedChildren(r.events, Always) == def.always
    ensures r.Ran? && r.end.Failed? ==>
      SpawnedChildren(r.events, Always) <= def.always &&
      (def.always != [] ==> SpawnedChildren(r.events, Always) < def.always)
    ensures r.Ran? && (ShouldNotRun(def, scope, o).Failure? || Launch(def, scope, logDir, o).Failure?) ==>
      r.events == [] && r.end.Failed?
  {
    match ShouldNotRun(def, scope, o)
    case Failure(e) => Ran([], Failed(e))
    case Success(skip) =>
      if skip then Skipped
      else
        match Launch(def, scope, logDir, o)
        case Failure(e) => Ran([], Failed(e))
        case Success(l) =>
          var scan := ScanLines(l.lines, l.job.patterns, def.onMatch, l.scope, o);
          if scan.err.Some? then
            WithinWeaken(scan.events, def.onMatch, [], def.onMatch, def.always);
            Ran(scan.events, Failed(scan.err.value))
          else
            Finish(def, scan)
  }
}

/** Properties of a whole `run_worker` call. */
module WorkerProperties {
  import opened Wrappers
  import opened Templates
  import opened Definitions
  import opened Gate
  import opened Patterns
  import opened Instances
  import opened Worker

  /** A completed run triggers the `on_match` group once per matching (line,
      pattern) pair, and then the `always` group exactly once, last, with the
      scope as the stream left it. */
  lemma CascadeCounts(def: NodeDef, scope: Scope, logDir: string, o: Oracles)
    ensures RunWorker(def, scope, logDir, o).Ran? && RunWorker(def, scope, logDir, o).end.Completed? ==>
      && ShouldNotRun(def, scope, o) == Success(false)
      && Launch(def, scope, logDir, o).Success?
      && var l := Launch(def, scope, logDir, o).value;
         var scan := ScanLines(l.lines, l.job.patterns, def.onMatch, l.scope, o);
         var events := RunWorker(def, scope, logDir, o).events;
         && SpawnedChildren(events, OnMatch) == Repeat(def.onMatch, MatchCount(l.lines, l.job.patterns, o))
         && SpawnedChildren(events, Always) == def.always
         && events == scan.events + SpawnAll(Always, def.always, scan.scope)
  {
    if RunWorker(def, scope, logDir, o).Ran? && RunWorker(def, scope, logDir, o).end.Completed? {
      var l := Launch(def, scope, logDir, o).value;
      var scan := ScanLines(l.lines, l.job.patterns, def.onMatch, l.scope, o);
      assert scan.err.None?;
      var fin := Trigger(Always, def.always, scan.scope);
      assert fin.err.None?;
      assert def.always[..|fin.events|] == def.always;
      assert RunWorker(def, scope, logDir, o).events == scan.events + fin.events;
      assert SpawnedChildren(scan.events, OnMatch) == Repeat(def.onMatch, MatchCount(l.lines, l.job.patterns, o)) by {
        ScanLinesCascade(l.lines, l.job.patterns, def.onMatch, l.scope, o);
      }
      assert SpawnedChildren(fin.events, OnMatch) == [] by {
        SpawnAllSpawned(Always, def.always, scan.scope);
      }
      SpawnedChildrenAppend(scan.events, fin.events, OnMatch);
    }
  }

  /** A sequence (of output lines, or of patterns) folded through an
      arbitrary step that threads the scope and stops at the first error. */
  function Stream<T>(xs: seq<T>, step: (T, Scope) -> Partial, scope: Scope): Partial
    decreases |xs|
  {
    if xs == [] then Partial([], scope, None)
    else
      var first := step(xs[0], scope);
      if first.err.Some? then first
      else
        var rest := Stream(xs[1..], step, first.scope);
        Partial(first.events + rest.events, rest.scope, rest.err)
  }

  /** Folding a concatenation folds the first part, then the second from where
      the first left the scope. */
  lemma {:induction false} StreamAppend<T>(a: seq<T>, b: seq<T>, step: (T, Scope) -> Partial, scope: Scope)
    requires Stream(a, step, scope).err.None?
    ensures
      var first := Stream(a, step, scope);
      var rest := Stream(b, step, first.scope);
      Stream(a + b, step, scope) == Partial(first.events + rest.events, rest.scope, rest.err)
    decreases |a|
  {
    if a == [] {
      assert a + b == b;
    } else {
      var head := step(a[0], scope);
      var mid := Stream(a[1..], step, head.scope);
      assert head.err.None? && Stream(a, step, scope) == Partial(head.events + mid.events, mid.scope, mid.err);
      StreamAppend(a[1..], b, step, head.scope);
      var rest := Stream(b, step, mid.scope);
      assert Stream(a + b, step, scope) ==
        Partial(head.events + (mid.events + rest.events), rest.scope, rest.err) by {
        assert (a + b)[0] == a[0] && (a + b)[1..] == a[1..] + b;
      }
      assert head.events + (mid.events + rest.events) == (head.events + mid.events) + rest.events;
    }
  }

  /** `ScanLines` is the fold of `ScanPatterns` over the output. */
  lemma {:induction false} ScanLinesIsStream(lines: seq<string>, pats: seq<Compiled>, onMatch: seq<NodeDef>, scope: Scope, o: Oracles)
    ensures ScanLines(lines, pats, onMatch, scope, o) ==
      Stream(lines, (line, s) => ScanPatterns(pats, line, onMatch, s, o), scope)
    decreases |lines|
  {
    if lines != [] {
      var first := ScanPatterns(pats, lines[0], onMatch, scope, o);
      if first.err.None? {
        ScanLinesIsStream(lines[1..], pats, onMatch, first.scope, o);
      }
    }
  }

  /** `ScanPatterns` is the fold of `TryPattern` over the patterns. */
  lemma {:induction false} ScanPatternsIsStream(pats: seq<Compiled>, line: string, onMatch: seq<NodeDef>, scope: Scope, o: Oracles)
    ensures ScanPatterns(pats, line, onMatch, scope, o) ==
      Stream(pats, (p, s) => TryPattern(p, line, onMatch, s, o), scope)
    decreases |pats|
  {
    if pats != [] {
      var first := TryPattern(pats[0], line, onMatch, scope, o);
      if first.err.None? {
        ScanPatternsIsStream(pats[1..], line, onMatch, first.scope, o);
      }
    }
  }

  /** The patterns of one line run in declared order, each from the scope the
      ones before it left: scanning `a + b` is scanning `a`, then `b` from
      where `a` left the scope, with `a`'s events kept at the head even when
      `b` raises. */
  lemma ScanPatternsAppend(a: seq<Compiled>, b: seq<Compiled>, line: string,
                           onMatch: seq<NodeDef>, scope: Scope, o: Oracles)
    ensures
      var first := ScanPatterns(a, line, onMatch, scope, o);
      var rest := ScanPatterns(b, line, onMatch, first.scope, o);
      first.err.None? ==>
        ScanPatterns(a + b, line, onMatch, scope, o) == Partial(first.events + rest.events, rest.scope, rest.err)
  {
    if ScanPatterns(a, line, onMatch, scope, o).err.None? {
      var step := (p, s) => TryPattern(p, line, onMatch, s, o);
      ScanPatternsIsStream(a, line, onMatch, scope, o);
      ScanPatternsIsStream(a + b, line, onMatch, scope, o);
      ScanPatternsIsStream(b, line, onMatch, ScanPatterns(a, line, onMatch, scope, o).scope, o);
      StreamAppend(a, b, step, scope);
    }
  }

  /** A single pattern scans the line exactly as trying it does. */
  lemma ScanPatternsOne(p: Compiled, line: string, onMatch: seq<NodeDef>, scope: Scope, o: Oracles)
    ensures ScanPatterns([p], line, onMatch, scope, o) == TryPattern(p, line, onMatch, scope, o)
  {
    var first := TryPattern(p, line, onMatch, scope, o);
    assert [p][0] == p && [p][1..] == [];
    assert first.events + [] == first.events;
  }

  /** The stream is processed line by line: the events of a first batch of
      lines, each `Spawn` with the scope it was given, stand unchanged at the
      head of the trace, and later lines only continue from the scope the
      batch left. No later capture reaches an earlier child. */
  lemma ScanLinesAppend(a: seq<string>, b: seq<string>, pats: seq<Compiled>,
                        onMatch: seq<NodeDef>, scope: Scope, o: Oracles)
    requires ScanLines(a, pats, onMatch, scope, o).err.None?
    ensures
      var first := ScanLines(a, pats, onMatch, scope, o);
      var rest := ScanLines(b, pats, onMatch, first.scope, o);
      ScanLines(a + b, pats, onMatch, scope, o) == Partial(first.events + rest.events, rest.scope, rest.err)
  {
    var step := (line, s) => ScanPatterns(pats, line, onMatch, s, o);
    ScanLinesIsStream(a, pats, onMatch, scope, o);
    ScanLinesIsStream(a + b, pats, onMatch, scope, o);
    ScanLinesIsStream(b, pats, onMatch, ScanLines(a, pats, onMatch, scope, o).scope, o);
    StreamAppend(a, b, step, scope);
  }

  /** A run completes exactly when the gate lets it through, the launch
      succeeds, the stream raises nothing and every `always` child can be
      constructed from the scope the stream left; it then consists of the
      stream's events followed by the whole `always` group. */
  lemma RunCompletes(def: NodeDef, scope: Scope, logDir: string, o: Oracles)
    ensures RunWorker(def, scope, logDir, o).Ran? && RunWorker(def, scope, logDir, o).end.Completed? <==>
      && ShouldNotRun(def, scope, o) == Success(false)
      && Launch(def, scope, logDir, o).Success?
      && var l := Launch(def, scope, logDir, o).value;
         var scan := ScanLines(l.lines, l.job.patterns, def.onMatch, l.scope, o);
         && scan.err.None?
         && forall i :: 0 <= i < |def.always| ==> NewInstance(def.always[i], scan.scope).Success?
    ensures ShouldNotRun(def, scope, o) == Success(false) && Launch(def, scope, logDir, o).Success? ==>
      var l := Launch(def, scope, logDir, o).value;
      var scan := ScanLines(l.lines, l.job.patterns, def.onMatch, l.scope, o);
      scan.err.None? && (forall i :: 0 <= i < |def.always| ==> NewInstance(def.always[i], scan.scope).Success?) ==>
        RunWorker(def, scope, logDir, o) == Ran(scan.events + SpawnAll(Always, def.always, scan.scope), Completed)
  {
    if ShouldNotRun(def, scope, o) == Success(false) && Launch(def, scope, logDir, o).Success? {
      var l := Launch(def, scope, logDir, o).value;
      var scan := ScanLines(l.lines, l.job.patterns, def.onMatch, l.scope, o);
      if scan.err.None? {
        assert RunWorker(def, scope, logDir, o) == Finish(def, scan);
      }
    }
  }

  /** Output in which no pattern matches runs only the `always` group, started
      with the scope holding the node's files. */
  lemma NoMatchOnlyAlways(def: NodeDef, scope: Scope, logDir: string, o: Oracles, l: Launched)
    requires ShouldNotRun(def, scope, o) == Success(false)
    requires Launch(def, scope, logDir, o) == Success(l)
    requires MatchCount(l.lines, l.job.patterns, o) == 0
    requires forall i :: 0 <= i < |def.always| ==> NewInstance(def.always[i], l.scope).Success?
    ensures RunWorker(def, scope, logDir, o) == Ran(SpawnAll(Always, def.always, l.scope), Completed)
  {
    ScanLinesNoMatch(l.lines, l.job.patterns, def.onMatch, l.scope, o);
    RunCompletes(def, scope, logDir, o);
    assert [] + SpawnAll(Always, def.always, l.scope) == SpawnAll(Always, def.always, l.scope);
  }

  /** An exception in the output loop ends the thread before line 103: the
      run fails with the events of the stream so far and never reaches the
      `always` group. */
  lemma StreamRaiseSkipsAlways(def: NodeDef, scope: Scope, logDir: string, o: Oracles, l: Launched)
    requires ShouldNotRun(def, scope, o) == Success(false)
    requires Launch(def, scope, logDir, o) == Success(l)
    ensures
      var scan := ScanLines(l.lines, l.job.patterns, def.onMatch, l.scope, o);
      scan.err.Some? ==>
        && RunWorker(def, scope, logDir, o) == Ran(scan.events, Failed(scan.err.value))
        && SpawnedChildren(RunWorker(def, scope, logDir, o).events, Always) == []
  {
  }

  /** A command that prints nothing completes with exactly the `always`
      group, when each of its children can be constructed. */
  lemma NoOutputOnlyAlways(def: NodeDef, scope: Scope, logDir: string, o: Oracles, l: Launched)
    requires ShouldNotRun(def, scope, o) == Success(false)
    requires Launch(def, scope, logDir, o) == Success(l) && l.lines == []
    requires forall i :: 0 <= i < |def.always| ==> NewInstance(def.always[i], l.scope).Success?
    ensures RunWorker(def, scope, logDir, o) == Ran(SpawnAll(Always, def.always, l.scope), Completed)
  {
    NoMatchOnlyAlways(def, scope, logDir, o, l);
  }

  /** The gate runs against the scope the node was constructed with, before
      any file is bound: a condition that mentions one of the node's own files,
      when the inherited scope lacks it, fails the node with nothing emitted,
      on some name the scope lacks; a condition that is just that file's field
      fails on the file's name. */
  lemma ConditionCannotSeeFiles(def: NodeDef, scope: Scope, logDir: string, o: Oracles, j: nat)
    requires def.enabled != Some(false)
    requires j < |def.files| && def.files[j].name !in scope
    requires def.condition.Some?
    requires exists k :: 0 <= k < |def.condition.value| && def.condition.value[k] == Var(def.files[j].name)
    ensures exists n :: n !in scope && RunWorker(def, scope, logDir, o) == Ran([], Failed(UnresolvedVariable(n)))
    ensures def.condition == Some([Var(def.files[j].name)]) ==>
      RunWorker(def, scope, logDir, o) == Ran([], Failed(UnresolvedVariable(def.files[j].name)))
  {
    var c := def.condition.value;
    assert !Closed(c, scope);
    var n := Resolve(c, scope).error;
    assert RunWorker(def, scope, logDir, o) == Ran([], Failed(UnresolvedVariable(n)));
    if c == [Var(def.files[j].name)] {
      assert Resolve(c, scope) == Failure(def.files[j].name) by {
        assert c[0] == Var(def.files[j].name);
      }
    }
  }

  /** A node whose `enabled` is false emits nothing and starts no child,
      whatever its condition, files, command and output would do. */
  lemma DisabledRunsNothing(def: NodeDef, scope: Scope, logDir: string, o: Oracles)
    requires def.enabled == Some(false)
    ensures RunWorker(def, scope, logDir, o) == Skipped
  {
  }
}

=== FILE: wrappers.dfy ===
/** Failure-compatible result types shared by every module of the model. */
module Wrappers {

  /** A value that may be absent (Python's `None`). */
  datatype Option<T> = None | Some(value: T)

  /** The outcome of an operation that may raise: a value or the error raised. */
  datatype Result<T, E> = Success(value: T) | Failure(error: E)
}
